=== FILE: README.md ===
# Re-Learn conversation state machines in Dafny

Re-Learn is a language-learning app. A placement survey first sets the
learner's CEFR level (A1 to C2). After that, a role-play lesson runs at that
level. This project models the logic that decides what happens on each turn:

- **survey.py**: the five-stage survey (`process_turn`).
- **test_backend/adaptive_survey.py**: the six-question CEFR assessment.
- **backend/chains.py**: the `ConversationManager` that gates turns on the survey stage.
- **backend/main.py**: the HTTP session store and the input and response shaping of `/api/chat`.
- **backend/front.py**: the Gradio history wrapper.
- **test_backend/adaptive_prompts.py** and **test_backend/adaptive_chains.py**: the adaptive prompt tables and lesson managers.
- **Client pages**: the role-play, demo, survey and sign-up pages.

Each state is an immutable datatype. Each operation is a pure function from
the old state to the new one. The code's calls to an LLM, speech-to-text,
text-to-speech, `fetch` and the microphone become `Option`-typed oracle
parameters. `None` means the call raised or the request failed.

Python code that mutates an object and then raises is modelled as an outcome
that carries the partly updated object: `Chains.Raised` and `AdaptiveChains.Raised`.

Bot messages and prompt wording are kept symbolic as datatypes. `Survey.Text`,
`AdaptiveSurvey.Text`, `Chains.ReplyText` and `AdaptivePrompts.FragmentText`
render them to the exact strings of the code.

A prompt template is a sequence of fixed text, substituted values and literal
placeholders (`AdaptivePrompts.Piece`). Its rendering is the concatenation of
the pieces.

| file | module |
|---|---|
| common.dfy | `Common`: Option, CEFR levels, JavaScript-style blank test, substring search, concatenation |
| survey.dfy | `Survey` |
| adaptive_survey.dfy | `AdaptiveSurvey` |
| chains.dfy | `Chains` |
| server.dfy | `Server` |
| gradio_front.dfy | `GradioFront` |
| adaptive_prompts.dfy | `AdaptivePrompts` |
| adaptive_chains.dfy | `AdaptiveChains` |
| roleplay.dfy | `Roleplay` |
| demo_page.dfy | `DemoPage` |
| survey_page.dfy | `SurveyPage` |
| signup.dfy | `SignUp` |

## Model

| member | source | states |
|---|---|---|
| Survey.StageNameRoundTrip | survey.py:85-137 | Any stage string, recognised or not, survives the trip through the `Stage` datatype. So the datatype loses no stage the dictionary could hold. |
| Survey.ParseStageRoundTrip | survey.py:85-137 | Printing a canonical stage and reading it back gives the same stage. |
| Survey.InitialState | survey.py:72-83 | The survey starts in `self_assessment` with no self-assessed level, no final result and English as the target language. |
| Survey.ProcessTurn | survey.py:85-137 | Each of the first three stages advances one stage, whatever the input. Only the first turn writes the self-assessed level, and it stores the input verbatim. Evaluation stores the verdict and completes, or on failure stays put with the result untouched. `complete` changes only the bot message. An unknown stage is forced to `complete` without a result. No turn touches the target language. |
| Survey.ProgressMonotone | survey.py:93-137 | From a recognised stage, a turn never goes backwards and never skips a stage. |
| Survey.StageStaysOnlyWhen | survey.py:108-132 | The stage stays the same exactly in `complete`, or in `evaluation` when the evaluator failed. |
| Survey.ReachableStep | survey.py:85-137 | Every turn preserves the reachability invariant. The invariant: no unknown stage, the target language is English, a self-assessed level exists exactly after the first stage, and `complete` holds iff a result does. |
| Survey.RunReachable | survey.py:72-137 | Every state reachable from the initial state satisfies that invariant, so the unknown-stage fallback is never taken. |
| Survey.CompleteHasResult | survey.py:72-137 | Every reachable `complete` state carries a final result, and the target language is still English. |
| Survey.OpeningTurns | survey.py:93-105 | The first three turns walk self_assessment, vocab, grammar, evaluation one stage per turn, record the first input as the self-assessed level, and set no result. |
| AdaptiveSurvey.QuestionsInLevelOrder | test_backend/adaptive_survey.py:18-43 | There are six questions, and the i-th is pitched at the i-th CEFR level, from A1 to C2. |
| AdaptiveSurvey.InitialState | test_backend/adaptive_survey.py:92-105 | The assessment starts at `welcome` with index 0, no answers and no result. |
| AdaptiveSurvey.AnswerAt | test_backend/adaptive_survey.py:134 | A question's answer is the recorded one, or "(No answer provided)" past the end of the list. |
| AdaptiveSurvey.Blocks | test_backend/adaptive_survey.py:131-135 | The transcript has exactly one block per question, in question order, each pairing the question with its answer or the placeholder. |
| AdaptiveSurvey.BuildTranscript | test_backend/adaptive_survey.py:131-135 | The `+=` loop builds exactly the concatenation of those blocks. |
| AdaptiveSurvey.TranscriptHasEveryQuestion | test_backend/adaptive_survey.py:131-135 | Each question occurs in the transcript together with its answer, whatever the number of recorded answers. |
| AdaptiveSurvey.ExaminerRequest | test_backend/adaptive_survey.py:127-140 | The examiner is called exactly on turns that start past the last question. What it receives contains every question paired with the answer recorded for it, including the answer given on that very turn, or with the placeholder. |
| AdaptiveSurvey.ProcessAssessmentTurn | test_backend/adaptive_survey.py:107-164 | `complete` is absorbing apart from the message. An answer is appended only when a question was outstanding. A question turn moves the index by exactly one and sets `assessment_in_progress`. After the last question, the examiner's verdict on the turn's transcript decides between `complete` with that verdict as the result and `error` with the result untouched. The bot says 'already complete' in `complete`, asks the question at the old index on a question turn, and after evaluation shows the graded level, examiner's note and feedback, or the failure apology. |
| AdaptiveSurvey.ReachableStep | test_backend/adaptive_survey.py:107-164 | Every turn preserves the reachability invariant. In `welcome` there is no answer. In progress there is one answer fewer than the index. In `error` and `complete` all six answers are recorded. A result exists exactly in `complete`. |
| AdaptiveSurvey.RunReachable | test_backend/adaptive_survey.py:92-164 | In every reachable state the index never exceeds six, and `complete` always carries a result. |
| AdaptiveSurvey.OpeningRun | test_backend/adaptive_survey.py:119-129 | After k turns (k up to 6) the index is k and the answers are inputs 2..k, since the welcome turn records nothing. The 7th turn records the sixth answer and ends in `complete` or `error`. |
| AdaptiveSurvey.ErrorRetries | test_backend/adaptive_survey.py:119-162 | `error` is not terminal. The next turn appends no answer, sends the same transcript again, and completes with the examiner's verdict if it answers. |
| AdaptiveSurvey.QuickRequest | test_backend/adaptive_survey.py:177-185 | The one-shot helpers build a transcript exactly when given six responses, and it pairs each question with the response at its position. |
| AdaptiveSurvey.RunQuickAssessment | test_backend/adaptive_survey.py:166-194 | A level comes back exactly when there are six responses and the examiner answers their transcript, and it is the level the examiner gave. |
| AdaptiveSurvey.GetAssessmentResultDetails | test_backend/adaptive_survey.py:196-222 | The examiner's whole verdict on the six responses' transcript comes back, under the same guard. |
| AdaptiveSurvey.QuickTranscriptUsesAnswers | test_backend/adaptive_survey.py:181-185 | With six responses, each block pairs question i with response i and never uses the placeholder. |
| Chains.NewManager | backend/chains.py:158-163 | A new manager has the survey at its initial state, level "A1", no lesson chain, empty memory and an empty scenario description. |
| Chains.Chat | backend/chains.py:165-188 | Before completion the turn is a survey turn with no feedback key and nothing remembered. It replies with the survey's next message, and a turn that leaves the survey running changes nothing else. The completing turn adopts the assessed level, builds the lesson chain from the generated scenario's template at that level, stores the scenario description, and replies "Assessment complete…" with level, description and the survey's message. It raises when the final result is missing or the scenario call fails, and then no chain is built; a scenario template the prompt library rejects counts as a failed scenario call (see "Left out"). After completion the survey and level are frozen. A successful lesson turn changes only the memory, which gains exactly (input, reply), and a raising lesson turn leaves the manager as it was. |
| Chains.NewManagerValid | backend/chains.py:158-163 | A new manager satisfies the manager invariant. |
| Chains.ChatValid | backend/chains.py:165-188 | Every turn, including the raising ones, keeps the manager invariant. The survey is reachable. Before completion the level is A1, with no chain and empty memory. After completion the level is the assessed one. A chain exists only after completion and is built for the current level. |
| Chains.NoMissingResult | backend/chains.py:168-169 | On a valid manager, subscripting a missing final result cannot happen. |
| Chains.ScenarioFailureIsPermanent | backend/chains.py:166-180 | If the scenario LLM fails on the completing turn, the survey is complete with no chain, and every later turn raises. |
| Chains.AssessmentDoneNonEmpty | backend/chains.py:173 | The reply of the completing turn is never empty. |
| Chains.SpeechSpeed | backend/chains.py:115-127 | The speed, in tenths, is 7 plus the CEFR rank for a level name, and 10 for anything else. |
| Chains.SpeechSpeedStrictlyIncreasing | backend/chains.py:117-124 | A higher CEFR level is always given a strictly higher speed value. |
| Server.GetConvoManager | backend/main.py:34-38 | A manager is created only for an unknown id, and every other session is kept. |
| Server.GetConvoManagerIdempotent | backend/main.py:34-38 | For a known id the store is unchanged, and asking twice is asking once. |
| Server.StartChat | backend/main.py:40-51 | One new session is registered under the fresh id. The response echoes that id and reports the stored manager's stage and greeting. |
| Server.FormValue | backend/main.py:54 | An optional form field binds to None exactly when it is absent or posted empty, and otherwise to the posted text. |
| Server.EmptyTextIsMissing | backend/main.py:54 | A request with an empty text field is answered exactly as one without a text field. |
| Server.SelectInput | backend/main.py:59-71 | Audio is used only when the stage is `complete` and audio was sent. Otherwise the bound text is used if present. Otherwise the kick-off input is used in `welcome`, and otherwise there is no input. Each of these holds in both directions. |
| Server.ChatEndpoint | backend/main.py:54-93 | A missing or empty `session_id` is a 422, exactly, and leaves the store untouched. Otherwise a 400 is returned exactly when no input is selected from the bound form, and the session is registered anyway. Otherwise the session's manager runs one `chat` turn on the selected input, and the manager it leaves is stored even when the turn or the speech synthesis raised. A raising turn is a server error. The answer's reply is the turn's reply, or "Sorry, an error occurred." when it has none, and its feedback is the turn's feedback. The response echoes the session id. Level and scenario are non-null iff the post-turn stage is `complete`. An audio URL is present iff the stage is `complete` and the reply is non-empty, and it names the synthesised file. |
| Server.StartChatValid | backend/main.py:40-51 | Starting a chat keeps every stored manager valid. |
| Server.ChatEndpointValid | backend/main.py:54-93 | Every request keeps every stored manager valid. |
| Server.NoInputIsRefused | backend/main.py:59-71 | These managers are never in `welcome`, so a request without non-empty text and without usable audio is always rejected: a 400, or a 422 without a session id. |
| Server.CompletingTurnIsSpoken | backend/main.py:75-93 | On the turn that completes the survey, the reply is spoken and the assessed level is reported. |
| GradioFront.ChatInterface | backend/front.py:8-25 | The history grows by one entry that pairs the message with the new bot message, and earlier entries are kept. The textbox is cleared, the state is exactly the survey step's output, and the JSON panel shows its final result. |
| GradioFront.ResetChat | backend/front.py:27-34 | A reset gives one greeting row, the initial state and no JSON. |
| GradioFront.SessionTracksSurvey | backend/front.py:8-34 | After a reset and n submits, the UI state equals the survey run over those n turns. The history holds the greeting plus one row per submit, each with the reply it got, and the JSON panel equals the run's result. |
| AdaptivePrompts.StyleFor | test_backend/adaptive_prompts.py:57 | Each of the six level names gets its own style, and any other string gets B1's. |
| AdaptivePrompts.ScenarioOr | test_backend/adaptive_prompts.py:162-166 | A scenario lookup gives the configured description for a lesson id, and the default for any other id. |
| AdaptivePrompts.LessonConfig | test_backend/adaptive_prompts.py:55-138 | The configuration has exactly the scenario table's keys. Each entry is the role-player template for that lesson at that level's style. |
| AdaptivePrompts.FourLessons | test_backend/adaptive_prompts.py:69-166 | There are exactly four lessons: coffee_shop, hotel_check_in, restaurant_booking and shopping_assistant. |
| AdaptivePrompts.StylesDistinct | test_backend/adaptive_prompts.py:4-53 | The style table gives the six levels six different styles, and the vocabulary guidance alone tells any two apart. |
| AdaptivePrompts.RoleplayerTemplate | test_backend/adaptive_prompts.py:59-85 | The role-player prompt substitutes the level (twice) and each of the six style fields into its instruction slots, then the persona's description, the `{history}` and `{user_input}` placeholders and the persona's speaker cue. |
| AdaptivePrompts.CorrectorTemplate | test_backend/adaptive_prompts.py:140-160 | The corrector prompt names the level at four places, uses the level's vocabulary guidance and example wording, and holds `{user_input}` at two places. |
| AdaptivePrompts.RoleplayerShape | test_backend/adaptive_prompts.py:59-85 | A role-player template embeds the level verbatim and holds exactly one `{history}` and one `{user_input}` placeholder, at fixed positions. |
| AdaptivePrompts.RoleplayerKeepsPlaceholders | test_backend/adaptive_prompts.py:82-83 | Every lesson template has exactly one `{history}` placeholder slot and one `{user_input}` placeholder slot. Their literal text appears in the rendered prompt, and so does the level. |
| AdaptivePrompts.UnknownLevelFallsBackToB1 | test_backend/adaptive_prompts.py:57-60 | For an unknown level the lesson prompt uses B1's style but still writes the unknown level's own name. |
| AdaptivePrompts.CorrectorPlaceholders | test_backend/adaptive_prompts.py:140-160 | The corrector template has exactly two `{user_input}` placeholder slots, and their literal text appears at two non-overlapping places in the rendering. |
| AdaptivePrompts.CorrectorNamesLevel | test_backend/adaptive_prompts.py:146 | The corrector prompt names the level verbatim, whatever string it is. |
| AdaptivePrompts.CorrectorFallsBackToB1 | test_backend/adaptive_prompts.py:142-149 | For an unknown level the corrector uses B1's vocabulary and example wording. |
| AdaptiveChains.LessonOrderMatchesIds | test_backend/adaptive_chains.py:53-55 | The list of available lessons reported in the error holds exactly the configured ids. |
| AdaptiveChains.CreateAdaptiveLessonChain | test_backend/adaptive_chains.py:40-72 | Building succeeds exactly for a configured lesson id, with that lesson's template at that level. Otherwise it names the id and the available lessons. The prompt library's re-parsing of the rendered template is not modelled (see "Left out"). |
| AdaptiveChains.NewManager | test_backend/adaptive_chains.py:139-155 | Construction succeeds exactly for a configured lesson, keeping the given lesson and level with empty memory. |
| AdaptiveChains.NewManagerConsistent | test_backend/adaptive_chains.py:139-155 | A new manager's chain is the one its lesson and level build. |
| AdaptiveChains.UpdateProficiencyLevel | test_backend/adaptive_chains.py:157-167 | The level is set before the rebuild, and the lesson and memory are untouched. The update raises exactly when the current lesson id is unknown, and then keeps the old chain. |
| AdaptiveChains.ChangeLesson | test_backend/adaptive_chains.py:169-179 | The lesson id is overwritten before the rebuild and the level is unchanged. The change raises exactly for an unknown id, leaving that id and the old chain behind. |
| AdaptiveChains.UpdatesKeepConsistency | test_backend/adaptive_chains.py:157-179 | A successful level update or lesson change leaves the chain matching the lesson and level. |
| AdaptiveChains.FailedChangeBlocksLevelUpdates | test_backend/adaptive_chains.py:157-179 | After a failed lesson change the manager is inconsistent, and every level update raises until a valid lesson is chosen. |
| AdaptiveChains.ChainRequest | test_backend/adaptive_chains.py:192-198 | The chain is asked with the input and exactly the remembered history. |
| AdaptiveChains.Chat | test_backend/adaptive_chains.py:182-216 | The chain is asked once, with the input and the remembered history. If it answers, memory gains exactly the (input, reply) pair and that answer is returned. On failure, memory is unchanged and the fixed apology is returned. Lesson, level and chain are never touched. |
| AdaptiveChains.ClearMemory | test_backend/adaptive_chains.py:218-221 | Clearing empties the memory and nothing else. |
| AdaptiveChains.GetLessonInfo | test_backend/adaptive_chains.py:223-230 | The info reports the lesson's configured description, or 'Unknown scenario', together with the level and exactly the configured lesson ids in order. |
| AdaptiveChains.NewAwareManager | test_backend/adaptive_chains.py:237-247 | An aware manager exists exactly for a configured lesson, with no collected responses. |
| AdaptiveChains.ReassessProficiency | test_backend/adaptive_chains.py:283-302 | Reassessment yields no level in every case. |
| AdaptiveChains.ChatWithAssessment | test_backend/adaptive_chains.py:249-281 | The input is always appended to the responses, and the result of chatting with the same chain is passed through. The level is reported unchanged with `proficiency_updated` false, and the count equals the length of the response list. |
| AdaptiveChains.AwareRunKeepsLevel | test_backend/adaptive_chains.py:249-302 | Over any number of turns the level, lesson and chain never change, and the response list is never reset: it is the old list followed by every input. |
| AdaptiveChains.AwareRunMemory | test_backend/adaptive_chains.py:182-216 | Over any number of turns the old memory is kept as a prefix, and memory grows by exactly one exchange per turn the chain answered. |
| AdaptiveChains.CreateQuickAssessmentManager | test_backend/adaptive_chains.py:312-324 | A manager is returned iff the quick assessment gives a level, and it is a fresh coffee_shop manager. |
| AdaptiveChains.QuickManagerNeedsSixResponses | test_backend/adaptive_chains.py:312-324 | A manager exists exactly for six responses whose transcript the examiner grades, at the level it gives. |
| AdaptiveChains.QuickManagerConsistent | test_backend/adaptive_chains.py:312-324 | The quick manager's chain is the coffee_shop chain for its level. |
| Roleplay.ResolveParams | frontend/src/pages/Roleplay.jsx:14 | Navigation state is used as given. Without it, the defaults are A1, the coffee-shop scenario, no session and the welcome message. |
| Roleplay.InitialPage | frontend/src/pages/Roleplay.jsx:16-28 | The transcript starts as the one initial bot message, when there is one. The panels start as the placeholders and nothing is recording. |
| Roleplay.DefaultOpening | frontend/src/pages/Roleplay.jsx:14-27 | Opened without state, the page shows exactly the welcome message and has no session. |
| Roleplay.ApplyReply | frontend/src/pages/Roleplay.jsx:66-77 | A reply adds one bot message and overwrites both panels with whatever the response holds, even when that is missing. A failure adds the error text and keeps the panels. |
| Roleplay.HandleSend | frontend/src/pages/Roleplay.jsx:53-81 | Nothing happens unless the trimmed input is non-empty and a session exists. Otherwise two messages are appended after the old ones and the input is cleared, on success and on failure alike. The correction and explanation panels take the response's fields, or keep their text when the request failed. The recorder state is never touched. |
| Roleplay.SendAppendsUserThenBot | frontend/src/pages/Roleplay.jsx:54-77 | A send appends the untrimmed user text and then exactly one bot message: the reply or 'Error processing response.'. |
| Roleplay.NoSessionNoSend | frontend/src/pages/Roleplay.jsx:14-54 | Without navigation state nothing can ever be sent. |
| Roleplay.StartRecording | frontend/src/pages/Roleplay.jsx:84-187 | Granted access starts a recorder with an empty buffer. Denial, or a missing track, changes nothing. An unsupported format leaves the stream open. |
| Roleplay.DataAvailable | frontend/src/pages/Roleplay.jsx:119-124 | Only chunks with data are buffered, and nothing else changes. |
| Roleplay.ManualStop | frontend/src/pages/Roleplay.jsx:189-194 | The stop acts only when the recorder is in the recording state. |
| Roleplay.BlobEmptyIffNoChunks | frontend/src/pages/Roleplay.jsx:121-142 | When only non-empty chunks are buffered, the blob is empty exactly when nothing was buffered. |
| Roleplay.ChunksStayNonEmpty | frontend/src/pages/Roleplay.jsx:113-124 | Starting and buffering keep every buffered chunk non-empty. |
| Roleplay.OnStop | frontend/src/pages/Roleplay.jsx:131-168 | The microphone is released first. An empty recording changes nothing else, and any other recording goes through the reply rule. |
| Roleplay.StopSendsOnlyRecordedAudio | frontend/src/pages/Roleplay.jsx:121-168 | A stop with nothing buffered appends nothing. Otherwise it appends exactly one bot message and never a user message. |
| DemoPage.InitialDemo | frontend/src/pages/DemoPage.jsx:111-117 | The page starts on coffee_shop with an empty conversation, no feedback, no audio element and no flags set. |
| DemoPage.StartRecording | frontend/src/pages/DemoPage.jsx:123-145 | Granted access empties the chunk buffer, sets recording, clears the error and leaves the conversation alone. A device failure only sets the microphone error. |
| DemoPage.DataAvailable | frontend/src/pages/DemoPage.jsx:129-131 | Every chunk is buffered, empty or not, and nothing else changes. |
| DemoPage.StopRecording | frontend/src/pages/DemoPage.jsx:147-152 | The stop acts only with a recorder while recording, and then clears the recording flag. |
| DemoPage.RecordButton | frontend/src/pages/DemoPage.jsx:284-286 | The button does nothing while loading. Otherwise it stops when recording and starts when not. |
| DemoPage.Parsed | frontend/src/pages/DemoPage.jsx:162-172 | A body is used exactly when fetch returned an ok response whose JSON parsed. |
| DemoPage.BeginRequest | frontend/src/pages/DemoPage.jsx:155 | Loading is on during the request, and nothing else changes. |
| DemoPage.CompleteRequest | frontend/src/pages/DemoPage.jsx:156-197 | Loading is off on every path. Success appends the user entry then the assistant entry and replaces the feedback wholesale. It starts a new audio element only for a truthy URL, and the element it replaces joins the orphans unpaused. Failure sets the error text and changes nothing else. |
| DemoPage.OnStop | frontend/src/pages/DemoPage.jsx:133-137 | The recording is sent whatever its size, and the microphone is released only after the request finished. |
| DemoPage.RequestOutcomes | frontend/src/pages/DemoPage.jsx:154-197 | After any request loading is off. A failure keeps conversation and feedback and sets the error. A success keeps the old entries and adds a user entry then an assistant entry. |
| DemoPage.NotOkIsFailure | frontend/src/pages/DemoPage.jsx:167-169 | A non-ok status is a failure even when its body would parse. |
| DemoPage.EmptyRecordingIsSent | frontend/src/pages/DemoPage.jsx:133-135 | An empty recording is not refused: a successful answer to it still adds two entries. |
| DemoPage.RecordingSession | frontend/src/pages/DemoPage.jsx:123-152 | Start then stop from idle records into an empty buffer. It ends not recording, and the request releases the microphone. |
| DemoPage.ClearConversation | frontend/src/pages/DemoPage.jsx:200-208 | Clearing empties the conversation, nulls the feedback, clears the error, and pauses the current audio element without rewinding it. Orphaned elements are out of its reach. |
| DemoPage.StopAudio | frontend/src/pages/DemoPage.jsx:210-216 | Stopping rewinds to 0, pauses and clears playing. Without an audio handle it is a no-op. |
| DemoPage.AudioEnded | frontend/src/pages/DemoPage.jsx:189 | The end of the current element's playback leaves it paused and clears the playing flag, and nothing else changes. |
| DemoPage.OrphanEnded | frontend/src/pages/DemoPage.jsx:189 | The end of an orphaned element's playback pauses that element only, and its handler still clears the playing flag, leaving the current element as it was. |
| DemoPage.AudioControls | frontend/src/pages/DemoPage.jsx:200-216 | Stopping twice is stopping once. Clearing and stopping clear the playing flag and pause the current element, clearing keeps the audio handle, and neither touches an orphaned element. |
| DemoPage.ReplacedAudioKeepsSounding | frontend/src/pages/DemoPage.jsx:182-189 | A spoken answer arriving while the previous one sounds orphans it still sounding. Clearing or stopping does not pause it, and its end clears the playing flag while the new answer plays. |
| SurveyPage.InitialPage | frontend/src/pages/Survey.jsx:9-10 | The page starts with no messages and an empty input. |
| SurveyPage.LoadQuestions | frontend/src/pages/Survey.jsx:12-24 | A successful load shows one bot message per fetched question and replaces the transcript. A failure shows exactly the sample question. |
| SurveyPage.LoadedQuestionsRoundTrip | frontend/src/pages/Survey.jsx:17 | Reading the loaded messages back gives the fetched questions, in order. |
| SurveyPage.FailedLoadShowsSample | frontend/src/pages/Survey.jsx:20 | A failed load leaves exactly one message, the sample question. |
| SurveyPage.HandleSend | frontend/src/pages/Survey.jsx:26-35 | A blank input does nothing. Otherwise one user message with the untrimmed text is appended after the old ones, that same text is submitted, and the input is cleared. |
| SurveyPage.SendsAppendAnswers | frontend/src/pages/Survey.jsx:26-35 | Over any sequence of sends, the transcript is the loaded messages followed by one user message per non-blank input, in order. Exactly those texts are submitted. |
| SignUp.EmptyForm | frontend/src/pages/SignUpPage.jsx:31-37 | The form starts with all five fields empty. |
| SignUp.HandleChange | frontend/src/pages/SignUpPage.jsx:40-45 | A change sets the named field and leaves the other four unchanged. |
| SignUp.ChangeLaws | frontend/src/pages/SignUpPage.jsx:40-45 | Writing a field's own value back changes nothing, and the later of two changes to one field wins. |
| SignUp.HandleSubmit | frontend/src/pages/SignUpPage.jsx:47-59 | Once the submit handler runs, a password mismatch is reported first. Matching passwords with any empty field report 'Please fill in all fields'. Any navigation goes to /dashboard. |
| SignUp.NavigatesIffValid | frontend/src/pages/SignUpPage.jsx:47-59 | The submit handler navigates exactly when the passwords are equal and all five fields are non-empty. |
| SignUp.MismatchTakesPrecedence | frontend/src/pages/SignUpPage.jsx:49-52 | A mismatch is reported even when fields are also missing. |
| SignUp.EmptyPasswordsReportMissing | frontend/src/pages/SignUpPage.jsx:49-56 | In the handler two empty passwords match, so an untouched form reaching it would get the fill-in error, not the mismatch error; in the browser the `required` fields stop such a submit first. |

## Left out

- LLM, speech-to-text and text-to-speech calls (the evaluator chain, the scenario chain, the lesson and corrector chains, ElevenLabs, Sarvam) are foreign calls. Each call is a parameter: its `Option` answer, or, for the adaptive examiner and lesson chain, a function from what the call is sent to its `Option` answer; the prompts sent to them are modelled only where the prompt text itself is the subject (the adaptive templates and transcripts).
- The FastAPI and uvicorn plumbing (CORS, static mounting, temporary files, `shutil`, `os.remove`) is I/O. A fresh uuid is a parameter (`Server.StartChat`'s `freshId`), and the generated audio file name is an oracle. FastAPI's form validation is modelled for `session_id` and `text` only (`Server.FormValue`, the 422 outcome); a malformed `audio` part is not modelled.
- Browser APIs (`getUserMedia`, `MediaRecorder`, `Audio`, `fetch`, `alert`) are events whose outcomes are parameters. Audio playback position and a rejected `play()` promise are not modelled.
- Roleplay.jsx's 5-second forced stop (lines 177-182) is a timer. It is not modelled. It would stop the recorder while leaving `isRecording` true.
- React closure staleness is framework scheduling and is not modelled. An example is Roleplay.jsx's `onstop` reading the chunk list captured at start. The chunk buffer is explicit state instead.
- Python shallow-copy aliasing is not modelled. `current_state.copy()` in test_backend/adaptive_survey.py shares the `answers` list with the caller, and front.py appends to the caller's history in place. The steps are pure.
- Floating-point speeds are integer tenths in `Chains.SpeechSpeed`. LLM temperatures are ignored.
- The order of rendered text is modelled only through pieces. Prompt wording is symbolic (`Fragment`), and its exact characters sit in `FragmentText` and the `Text` functions.
- backend/proto_gradio.py is not part of this model. It imports names backend/chains.py does not define.
- backend/roleplay_prompts.py is not part of this model. It is pure prompt data.
- The presentational pages, navigation bars, App.jsx and main.jsx are not part of this model. They hold layout and routing only. The same goes for the demo page's lesson selector, which only stores the choice.
- LoginPage.jsx is not part of this model. Its only logic is a single `email && password` check.
- `get_available_lessons` in test_backend/adaptive_chains.py returns the scenario table itself (`AdaptivePrompts.LessonScenarios`), so it has no separate member.
- Compatibility between the frontends and the backend is not modelled; each side is modelled on its own. DemoPage posts fields `/api/chat` does not read, and Roleplay.jsx calls `/roleplay/*` routes that backend/main.py does not define.
- `Common.Blank` treats space, tab, newline, carriage return, vertical tab, form feed and no-break space as whitespace. JavaScript's `trim()` also strips other Unicode space separators and line terminators.
- Survey.jsx does not model the load finishing after a send: the load would replace the transcript, dropping the answer.
- AdaptiveSurvey.ExaminerRequest: the transcript is built from symbolic question texts, so its exact characters are stated only through `AdaptiveSurvey.Block`.
- SignUp.HandleSubmit: models the submit handler only. Every field of frontend/src/pages/SignUpPage.jsx is `required` (lines 75, 84, 94, 104, 114), the email field is `type="email"` (line 98) and the form (line 71) has no `noValidate`, so the browser blocks a submit with an empty field or a malformed email before the handler runs. The browser's form validation is not modelled, so the handler's fill-in error is reachable only where that validation is bypassed.
- Roleplay.HandleSend: the audio attached to a reply (`playAudio`) and the initial-audio request are not modelled.
- AdaptiveChains.CreateAdaptiveLessonChain: `ChatPromptTemplate.from_template` parses the rendered templates again, so a level containing an unmatched brace (`"A{1"`, which `update_proficiency_level` accepts) raises `ValueError` and a level like `"{x}"` adds a template variable. Templates are symbolic pieces here, so the model does not state this raise and claims success for every level.
- Chains.Chat: the lesson chain's history argument is not modelled. The chain answer is an oracle, and only what is saved to memory is stated. `Oracles.scenario == None` stands both for a raising scenario call and for a generated template that `ChatPromptTemplate.from_template` rejects (backend/chains.py:91, reached from :171), such as one with an unmatched brace; in the second case the source raises with `cefr_level` already set and the chain still unset, which the model does not distinguish.

### Behaviour worth noting

- Roleplay.jsx has no guard against a second send while one is in flight.
- DemoPage.jsx has no empty-recording check: an empty blob is posted (`DemoPage.EmptyRecordingIsSent`).
- DemoPage.jsx releases the microphone only after the request has finished.
- DemoPage.jsx replaces `audioRef.current` with each new spoken answer without pausing the previous element, which keeps sounding beyond the reach of the clear and stop buttons (`DemoPage.ReplacedAudioKeepsSounding`).
- Neither page keeps the previous feedback when a response lacks it. Roleplay.jsx overwrites both panels with whatever the response holds, and DemoPage.jsx replaces the feedback wholesale.
- backend/main.py registers a session for an unknown id even when it then answers 400 (`Server.ChatEndpoint`).
- In backend/chains.py a scenario failure on the completing turn leaves a manager that raises on every later turn (`Chains.ScenarioFailureIsPermanent`).
- With this backend the `welcome` kick-off branch of `/api/chat` is dead, because these managers start in `self_assessment` (`Server.NoInputIsRefused`).
- `_reassess_proficiency` is a placeholder that never returns a level, so the adaptive level never changes through reassessment (`AdaptiveChains.AwareRunKeepsLevel`).
- `change_lesson` with an unknown id keeps the old chain under the new id (`AdaptiveChains.FailedChangeBlocksLevelUpdates`).

=== FILE: adaptive_chains.dfy ===
/** The lesson managers of test_backend/adaptive_chains.py: a lesson chain
    is built from a lesson id and a level using the prompt tables, a
    conversation manager holds the lesson, the level, the current chain and
    the memory, and a proficiency-aware wrapper counts the user's responses
    for a reassessment that never yields a level.

    The chain's LLM calls are an oracle: a function from what the chain is
    invoked with to its answer, None when the invocation raised. A raised `ValueError` is an outcome that
    carries the manager as Python leaves it, with the fields assigned before
    the raise already changed. */
module AdaptiveChains {
  import opened Common
  import Chains
  import AdaptiveSurvey
  import opened AdaptivePrompts

  /** The combined chain: the role-player and corrector prompts it was built from. */
  datatype LessonChain = LessonChain(roleplayer: Template, corrector: Template)

  /** The lesson ids in insertion order; the configuration and the scenario
      table list them in the same order. */
  function LessonOrder(): (ids: seq<string>)
    ensures |ids| == |LessonScenarios|
    ensures forall i :: 0 <= i < |ids| ==> ids[i] == LessonScenarios[i].0
  {
    seq(|LessonScenarios|, i requires 0 <= i < |LessonScenarios| => LessonScenarios[i].0)
  }

  lemma LessonOrderMatchesIds()
    ensures forall id :: id in LessonOrder() <==> id in LessonIds()
  {
    var ids := LessonOrder();
    forall id ensures id in ids <==> id in LessonIds() {
      if id in ids {
        var i :| 0 <= i < |ids| && ids[i] == id;
        assert LessonScenarios[i].0 == id;
      }
    }
  }

  datatype Built =
    | Ok(chain: LessonChain)
    | InvalidLessonId(lessonId: string, available: seq<string>)  // the ValueError

  /** `create_adaptive_lesson_chain`. */
  function CreateAdaptiveLessonChain(lessonId: string, level: string): (r: Built)
    ensures r.Ok? <==> lessonId in LessonIds()
    ensures r.Ok? ==> r.chain.roleplayer == RoleplayerTemplate(level, StyleFor(level), PersonaOf(lessonId))
                      && r.chain.corrector == CorrectorTemplate(level)
    ensures r.InvalidLessonId? ==> r.lessonId == lessonId && r.available == LessonOrder()
  {
    var config := LessonConfig(level);
    if lessonId !in config then InvalidLessonId(lessonId, LessonOrder())
    else Ok(LessonChain(config[lessonId], CorrectorTemplate(level)))
  }

  /** `AdaptiveConversationManager`; `memory` holds the (input, reply) pairs saved so far. */
  datatype Manager = Manager(
    lessonId: string,
    cefrLevel: string,
    chain: LessonChain,
    memory: seq<(string, string)>)

  /** `AdaptiveConversationManager.__init__`: None when the constructor raised. */
  function NewManager(lessonId: string, level: string): (r: Option<Manager>)
    ensures r.Some? <==> lessonId in LessonIds()
    ensures r.Some? ==> r.value.lessonId == lessonId && r.value.cefrLevel == level && r.value.memory == []
  {
    match CreateAdaptiveLessonChain(lessonId, level)
    case Ok(chain) => Some(Manager(lessonId, level, chain, []))
    case InvalidLessonId(_, _) => None
  }

  /** The manager's chain is the one its lesson and level build. */
  predicate Consistent(m: Manager) {
    CreateAdaptiveLessonChain(m.lessonId, m.cefrLevel) == Ok(m.chain)
  }

  lemma NewManagerConsistent(lessonId: string, level: string)
    requires lessonId in LessonIds()
    ensures Consistent(NewManager(lessonId, level).value)
  {
  }

  datatype Outcome = Done(manager: Manager) | Raised(manager: Manager)

  /** `update_proficiency_level`: the level is assigned before the chain is rebuilt. */
  function UpdateProficiencyLevel(m: Manager, newLevel: string): (r: Outcome)
    ensures r.manager.cefrLevel == newLevel
    ensures r.manager.lessonId == m.lessonId && r.manager.memory == m.memory
    ensures r.Raised? <==> m.lessonId !in LessonIds()
    ensures r.Raised? ==> r.manager.chain == m.chain
  {
    var m1 := m.(cefrLevel := newLevel);
    match CreateAdaptiveLessonChain(m.lessonId, newLevel)
    case Ok(chain) => Done(m1.(chain := chain))
    case InvalidLessonId(_, _) => Raised(m1)
  }

  /** `change_lesson`: the lesson id is assigned before the chain is rebuilt. */
  function ChangeLesson(m: Manager, newLessonId: string): (r: Outcome)
    ensures r.manager.lessonId == newLessonId
    ensures r.manager.cefrLevel == m.cefrLevel && r.manager.memory == m.memory
    ensures r.Raised? <==> newLessonId !in LessonIds()
    ensures r.Raised? ==> r.manager.chain == m.chain
  {
    var m1 := m.(lessonId := newLessonId);
    match CreateAdaptiveLessonChain(newLessonId, m.cefrLevel)
    case Ok(chain) => Done(m1.(chain := chain))
    case InvalidLessonId(_, _) => Raised(m1)
  }

  /** Successful updates keep the manager consistent. */
  lemma UpdatesKeepConsistency(m: Manager, level: string, lessonId: string)
    ensures UpdateProficiencyLevel(m, level).Done? ==> Consistent(UpdateProficiencyLevel(m, level).manager)
    ensures ChangeLesson(m, lessonId).Done? ==> Consistent(ChangeLesson(m, lessonId).manager)
  {
  }

  /** A failed lesson change leaves an unknown lesson id behind with the old
      chain, so every later level update raises until a valid lesson is chosen. */
  lemma FailedChangeBlocksLevelUpdates(m: Manager, badId: string, level: string)
    requires badId !in LessonIds()
    ensures ChangeLesson(m, badId).Raised?
    ensures var broken := ChangeLesson(m, badId).manager;
            broken.lessonId == badId && broken.chain == m.chain && !Consistent(broken)
            && UpdateProficiencyLevel(broken, level).Raised?
  {
  }

  const ApologyReply := "I'm sorry, I encountered an error. Please try again."
  const TechnicalIssue := "There was a technical issue. Please try rephrasing your message."

  /** The fixed answer when the chain raised. */
  function ErrorResponse(): Chains.LessonReply {
    Chains.LessonReply(ApologyReply, Chains.Feedback(Some(""), Some(TechnicalIssue)))
  }

  /** What the chain is invoked with: the input and the remembered history. */
  datatype ChainInput = ChainInput(userInput: string, history: seq<(string, string)>)

  /** The lesson chain's LLM call: its answer, None when the invocation raised. */
  type Chain = ChainInput -> Option<Chains.LessonReply>

  /** The chain is invoked with the input and exactly the remembered history. */
  function ChainRequest(m: Manager, input: string): (r: ChainInput)
    ensures r.userInput == input && r.history == m.memory
  {
    ChainInput(input, m.memory)
  }

  /** `chat`: the chain is asked once, on `ChainRequest(m, input)`. */
  function Chat(m: Manager, input: string, chain: Chain): (r: (Manager, Chains.LessonReply))
    ensures r.0.lessonId == m.lessonId && r.0.cefrLevel == m.cefrLevel && r.0.chain == m.chain
    ensures chain(ChainRequest(m, input)).Some? ==>
              r.0.memory == m.memory + [(input, chain(ChainRequest(m, input)).value.reply)]
              && r.1 == chain(ChainRequest(m, input)).value
    ensures chain(ChainRequest(m, input)).None? ==> r.0.memory == m.memory && r.1 == ErrorResponse()
  {
    match chain(ChainInput(input, m.memory))
    case Some(response) => (m.(memory := m.memory + [(input, response.reply)]), response)
    case None => (m, ErrorResponse())
  }

  /** `clear_memory`. */
  function ClearMemory(m: Manager): (r: Manager)
    ensures r.memory == [] && r.lessonId == m.lessonId && r.cefrLevel == m.cefrLevel && r.chain == m.chain
  {
    m.(memory := [])
  }

  const UnknownScenario := "Unknown scenario"

  datatype LessonInfo = LessonInfo(
    lessonId: string,
    scenarioDescription: string,
    cefrLevel: string,
    availableLessons: seq<string>)

  /** `get_lesson_info`. */
  function GetLessonInfo(m: Manager): (r: LessonInfo)
    ensures r.lessonId == m.lessonId && r.cefrLevel == m.cefrLevel
    ensures r.availableLessons == LessonOrder()
    ensures m.lessonId !in LessonIds() ==> r.scenarioDescription == UnknownScenario
    ensures forall i :: 0 <= i < |LessonScenarios| && LessonScenarios[i].0 == m.lessonId ==>
              r.scenarioDescription == LessonScenarios[i].1
  {
    LessonInfo(m.lessonId, ScenarioOr(m.lessonId, UnknownScenario), m.cefrLevel, LessonOrder())
  }

  // ---------------------------------------------------------------------------
  // ProficiencyAwareManager

  const AssessmentThreshold: nat := 5

  /** `ProficiencyAwareManager`. */
  datatype AwareManager = AwareManager(conversation: Manager, userResponses: seq<string>)

  function NewAwareManager(lessonId: string, level: string): (r: Option<AwareManager>)
    ensures r.Some? <==> lessonId in LessonIds()
    ensures r.Some? ==> r.value.userResponses == [] && r.value.conversation == NewManager(lessonId, level).value
  {
    match NewManager(lessonId, level)
    case Some(m) => Some(AwareManager(m, []))
    case None => None
  }

  /** `_reassess_proficiency`: the assessment is a placeholder that gives no level,
      whether or not three responses are available. */
  function ReassessProficiency(responses: seq<string>): (r: Option<string>)
    ensures r.None?
  {
    None
  }

  /** The dictionary `chat_with_assessment` returns. */
  datatype AssessedResponse = AssessedResponse(
    response: Chains.LessonReply,
    proficiencyUpdated: bool,
    currentLevel: string,
    responsesCollected: int)

  datatype AwareOutcome =
    | Answered(manager: AwareManager, result: AssessedResponse)
    | Failed(manager: AwareManager)  // the level update raised

  /** `chat_with_assessment`. */
  function ChatWithAssessment(pm: AwareManager, input: string, autoAssess: bool, chain: Chain): (r: AwareOutcome)
    ensures r.Answered?
    ensures r.manager.userResponses == pm.userResponses + [input]
    ensures r.manager.conversation == Chat(pm.conversation, input, chain).0
    ensures r.result.response == Chat(pm.conversation, input, chain).1
    ensures !r.result.proficiencyUpdated
    ensures r.result.currentLevel == pm.conversation.cefrLevel
    ensures r.result.responsesCollected == |r.manager.userResponses|
  {
    var responses := pm.userResponses + [input];
    var (m1, response) := Chat(pm.conversation, input, chain);
    var newLevel := if autoAssess && |responses| >= AssessmentThreshold then ReassessProficiency(responses) else None;
    var kept := Answered(AwareManager(m1, responses), AssessedResponse(response, false, m1.cefrLevel, |responses|));
    match newLevel
    case None => kept
    case Some(level) =>
      if level == "" || level == m1.cefrLevel then kept
      else
        match UpdateProficiencyLevel(m1, level)
        case Done(m2) =>
          var reset: seq<string> := [];
          Answered(AwareManager(m2, reset), AssessedResponse(response, true, m2.cefrLevel, |reset|))
        case Raised(m2) => Failed(AwareManager(m2, responses))
  }

  /** One `chat_with_assessment` call of a session. */
  datatype AwareTurn = AwareTurn(input: string, autoAssess: bool, chain: Chain)

  /** The manager after a sequence of calls. */
  function AwareRun(pm: AwareManager, turns: seq<AwareTurn>): AwareManager
    decreases |turns|
  {
    if |turns| == 0 then pm
    else
      var last := turns[|turns| - 1];
      ChatWithAssessment(AwareRun(pm, turns[..|turns| - 1]), last.input, last.autoAssess, last.chain).manager
  }

  function TurnInputs(turns: seq<AwareTurn>): (r: seq<string>)
    ensures |r| == |turns| && forall i :: 0 <= i < |turns| ==> r[i] == turns[i].input
  {
    seq(|turns|, i requires 0 <= i < |turns| => turns[i].input)
  }

  /** Whether the chain answers the last of `turns`, asked from the manager
      the earlier turns left behind. */
  predicate LastAnswered(pm: AwareManager, turns: seq<AwareTurn>)
    requires |turns| > 0
  {
    var last := turns[|turns| - 1];
    last.chain(ChainRequest(AwareRun(pm, turns[..|turns| - 1]).conversation, last.input)).Some?
  }

  /** How many of `turns` got an answer from the chain. */
  function AnsweredCount(pm: AwareManager, turns: seq<AwareTurn>): nat
    decreases |turns|
  {
    if |turns| == 0 then 0
    else AnsweredCount(pm, turns[..|turns| - 1]) + (if LastAnswered(pm, turns) then 1 else 0)
  }

  /** However many turns, the level and lesson never change through
      reassessment and the response list is never reset: it is the old list
      followed by every input. */
  lemma {:induction false} AwareRunKeepsLevel(pm: AwareManager, turns: seq<AwareTurn>)
    ensures AwareRun(pm, turns).conversation.cefrLevel == pm.conversation.cefrLevel
    ensures AwareRun(pm, turns).conversation.lessonId == pm.conversation.lessonId
    ensures AwareRun(pm, turns).conversation.chain == pm.conversation.chain
    ensures AwareRun(pm, turns).userResponses == pm.userResponses + TurnInputs(turns)
    decreases |turns|
  {
    if |turns| > 0 {
      var n := |turns|;
      var prefix := turns[..n - 1];
      AwareRunKeepsLevel(pm, prefix);
      assert TurnInputs(turns) == TurnInputs(prefix) + [turns[n - 1].input];
    }
  }

  /** Memory grows by exactly one exchange per turn the chain answered, and
      failed turns remember nothing. */
  lemma {:induction false} AwareRunMemory(pm: AwareManager, turns: seq<AwareTurn>)
    ensures |AwareRun(pm, turns).conversation.memory| == |pm.conversation.memory| + AnsweredCount(pm, turns)
    ensures AwareRun(pm, turns).conversation.memory[..|pm.conversation.memory|] == pm.conversation.memory
    decreases |turns|
  {
    if |turns| > 0 {
      var n := |turns|;
      var prefix := turns[..n - 1];
      AwareRunMemory(pm, prefix);
      var before := AwareRun(pm, prefix).conversation.memory;
      var after := AwareRun(pm, turns).conversation.memory;
      if LastAnswered(pm, turns) {
        assert after[..|before|] == before;
        assert after[..|pm.conversation.memory|] == before[..|pm.conversation.memory|];
      }
    }
  }

  // ---------------------------------------------------------------------------
  // create_quick_assessment_manager

  /** `create_quick_assessment_manager`: the examiner grades the responses once. */
  function CreateQuickAssessmentManager(responses: seq<string>, examiner: AdaptiveSurvey.Examiner): (r: Option<Manager>)
    ensures r.Some? <==> AdaptiveSurvey.RunQuickAssessment(responses, examiner).Some?
    ensures r.Some? ==> r.value.lessonId == "coffee_shop" && r.value.memory == []
                        && r.value.cefrLevel == LevelName(AdaptiveSurvey.RunQuickAssessment(responses, examiner).value)
  {
    match AdaptiveSurvey.RunQuickAssessment(responses, examiner)
    case None => None
    case Some(level) =>
      FourLessons();
      NewManager("coffee_shop", LevelName(level))
  }

  /** A quick-assessment manager exists exactly for six responses the
      examiner grades, and then it is at the examiner's level for them. */
  lemma QuickManagerNeedsSixResponses(responses: seq<string>, examiner: AdaptiveSurvey.Examiner)
    ensures CreateQuickAssessmentManager(responses, examiner).Some? <==>
              |responses| == 6 && examiner(AdaptiveSurvey.Transcript(responses)).Some?
    ensures CreateQuickAssessmentManager(responses, examiner).Some? ==>
              CreateQuickAssessmentManager(responses, examiner).value.cefrLevel
              == LevelName(examiner(AdaptiveSurvey.Transcript(responses)).value.level)
  {
    AdaptiveSurvey.QuestionsInLevelOrder();
  }

  /** The quick-assessment manager's chain is the coffee-shop chain for its level. */
  lemma QuickManagerConsistent(responses: seq<string>, examiner: AdaptiveSurvey.Examiner)
    requires |responses| == 6 && examiner(AdaptiveSurvey.Transcript(responses)).Some?
    ensures Consistent(CreateQuickAssessmentManager(responses, examiner).value)
  {
    AdaptiveSurvey.QuestionsInLevelOrder();
    var level := LevelName(AdaptiveSurvey.RunQuickAssessment(responses, examiner).value);
    QuickManagerIsNew(responses, examiner);
    NewManagerConsistent("coffee_shop", level);
  }

  lemma QuickManagerIsNew(responses: seq<string>, examiner: AdaptiveSurvey.Examiner)
    requires AdaptiveSurvey.RunQuickAssessment(responses, examiner).Some?
    ensures CreateQuickAssessmentManager(responses, examiner)
            == NewManager("coffee_shop", LevelName(AdaptiveSurvey.RunQuickAssessment(responses, examiner).value))
  {
  }
}

=== FILE: adaptive_prompts.dfy ===
/** The prompt tables of test_backend/adaptive_prompts.py: the per-level
    speech styles, the four lesson role-play templates and the corrector
    template.

    A template is a list of pieces: fixed wording of adaptive_prompts.py
    (`Fixed`, rendered by `FragmentText`), values its f-strings substitute
    when the template is built (`Value`: the level, a style field, a
    persona), and placeholders it escapes as `{{name}}`, which
    survive as the literal `{name}` for the prompt library to fill later. */
module AdaptivePrompts {
  import opened Common

  /** The fixed wording between substituted values, in order of appearance. */
  datatype Fragment =
    | Newline | BlankLine | Bullet
    | ImportantLevel | AdaptUse | StructureWith | FocusOn
    | AdjustTo | ProficiencyThenHistory | UserLabel | SpeakerEnd
    | CorrectorIntro | AdjustFeedback | InExplanationsFocus | LearnersBullet
    | AnalyzeSentence | ResponseFormat | PerfectTip | ComplimentAnalyze | JsonResponse

  function FragmentText(f: Fragment): string {
    match f
    case Newline => "\n"
    case BlankLine => "\n\n"
    case Bullet => "\n- "
    case ImportantLevel => "\nIMPORTANT: The user's English proficiency level is "
    case AdaptUse => ". Adapt your language accordingly:\n- Use "
    case StructureWith => "\n- Structure responses with "
    case FocusOn => "\n- Focus on "
    case AdjustTo => "- Adjust your language complexity to match the user's "
    case ProficiencyThenHistory => " proficiency level.\n\nCurrent conversation:\n"
    case UserLabel => "\nUser: "
    case SpeakerEnd => ":\n"
    case CorrectorIntro =>
      "\nYou are an expert language analysis AI. Your task is to analyze a single sentence from a language learner "
      + "and provide concise, helpful feedback in JSON format.\nThe user is learning English and their proficiency level is "
    case AdjustFeedback => ". Adjust your feedback accordingly:\n- Use "
    case InExplanationsFocus => " in your explanations\n- Focus on errors appropriate for "
    case LearnersBullet => " level learners\n- "
    case AnalyzeSentence => " in your explanations\n\nAnalyze the following sentence: \""
    case ResponseFormat =>
      "\"\n\nYour response MUST be a valid JSON object with two keys: 'correction' and 'explanation'.\n"
      + "- 'correction': Provide a more natural or grammatically correct version of the sentence appropriate for "
    case PerfectTip =>
      " level. If the sentence is perfect, say \"\".\n"
      + "- 'explanation': Briefly explain why the change was made or offer a small tip suitable for "
    case ComplimentAnalyze =>
      " level. If no correction was needed, give an encouraging compliment.\n\nUser input to analyze: \""
    case JsonResponse => "\"\nYour JSON response:\n"
  }

  datatype Piece = Fixed(f: Fragment) | Value(s: string) | Slot(name: string)

  type Template = seq<Piece>

  function SlotText(name: string): string {
    "{" + name + "}"
  }

  /** The text one piece contributes. */
  function PieceText(p: Piece): string {
    match p
    case Fixed(f) => FragmentText(f)
    case Value(s) => s
    case Slot(n) => SlotText(n)
  }

  /** The text of each piece, in order. */
  function Texts(t: Template): (ts: seq<string>)
    ensures |ts| == |t|
    ensures forall i :: 0 <= i < |t| ==> ts[i] == PieceText(t[i])
  {
    seq(|t|, i requires 0 <= i < |t| => PieceText(t[i]))
  }

  /** The string adaptive_prompts.py's f-string evaluates to. */
  function Render(t: Template): string {
    Concat(Texts(t))
  }

  /** How many times placeholder `name` occurs in `t`. */
  function SlotCount(t: Template, name: string): nat
    decreases |t|
  {
    if |t| == 0 then 0
    else SlotCount(t[..|t| - 1], name) + (if t[|t| - 1] == Slot(name) then 1 else 0)
  }

  /** Slot counts add up over concatenation. */
  lemma {:induction false} SlotCountAppend(a: Template, b: Template, name: string)
    ensures SlotCount(a + b, name) == SlotCount(a, name) + SlotCount(b, name)
    decreases |b|
  {
    if |b| == 0 {
      assert a + b == a;
    } else {
      var ab := a + b;
      assert ab[..|ab| - 1] == a + b[..|b| - 1];
      SlotCountAppend(a, b[..|b| - 1], name);
    }
  }

  /** The count is zero exactly when the placeholder is absent. */
  lemma {:induction false} SlotCountAbsent(t: Template, name: string)
    ensures SlotCount(t, name) == 0 <==> Slot(name) !in t
    decreases |t|
  {
    if |t| > 0 {
      var init := t[..|t| - 1];
      assert t == init + [t[|t| - 1]];
      SlotCountAbsent(init, name);
    }
  }

  /** A template without placeholders counts none. */
  predicate SlotFree(t: Template) {
    forall i :: 0 <= i < |t| ==> !t[i].Slot?
  }

  lemma SlotFreeCount(t: Template, name: string)
    requires SlotFree(t)
    ensures SlotCount(t, name) == 0
  {
    SlotCountAbsent(t, name);
  }

  /** Counting around two single pieces `x` and `y`. */
  lemma SlotCountAround(a: Template, x: Piece, b: Template, y: Piece, c: Template, name: string)
    ensures SlotCount(a + [x] + b + [y] + c, name)
            == SlotCount(a, name) + (if x == Slot(name) then 1 else 0) + SlotCount(b, name)
               + (if y == Slot(name) then 1 else 0) + SlotCount(c, name)
  {
    SlotCountAppend(a + [x] + b + [y], c, name);
    SlotCountAppend(a + [x] + b, [y], name);
    SlotCountAppend(a + [x], b, name);
    SlotCountAppend(a, [x], name);
    assert [x][..0] == [];
    assert [y][..0] == [];
  }

  /** Piece `i` shows up in the rendering right after the text of the pieces before it. */
  lemma PieceRendered(t: Template, i: nat)
    requires i < |t|
    ensures OccursAt(Render(t), PieceText(t[i]), |Concat(Texts(t)[..i])|)
    ensures Contains(Render(t), PieceText(t[i]))
  {
    ConcatPrefix(Texts(t), i);
  }

  // ---------------------------------------------------------------------------
  // Speech styles

  datatype SpeechStyle = SpeechStyle(
    vocabulary: string,
    sentenceStructure: string,
    complexity: string,
    speed: string,
    repetition: string,
    examples: string)

  /** The entry of `SPEECH_STYLES` for each CEFR level; every entry has the same six fields by construction. */
  function StyleOf(l: Level): SpeechStyle {
    match l
    case A1 => SpeechStyle(
      "very simple, common words", "short, simple sentences", "basic concepts only",
      "speak slowly and clearly", "repeat important information", "use concrete, everyday examples")
    case A2 => SpeechStyle(
      "simple, familiar words with some variety", "simple sentences with basic connectors", "straightforward topics",
      "speak at a moderate pace", "repeat key points when needed", "use practical, relatable examples")
    case B1 => SpeechStyle(
      "common vocabulary with some less frequent words", "mix of simple and compound sentences",
      "familiar topics with some detail", "normal speaking pace", "clarify complex points",
      "use relevant examples and explanations")
    case B2 => SpeechStyle(
      "good range of vocabulary including some specialized terms", "varied sentence structures",
      "abstract topics with clear explanations", "natural speaking pace", "rephrase when necessary",
      "use detailed examples and analogies")
    case C1 => SpeechStyle(
      "wide range of vocabulary including idiomatic expressions", "complex and varied sentence structures",
      "sophisticated topics with nuanced explanations", "natural, fluent pace", "minimal repetition needed",
      "use sophisticated examples and references")
    case C2 => SpeechStyle(
      "extensive vocabulary including specialized and technical terms", "highly varied and sophisticated structures",
      "complex abstract concepts with precision", "natural, native-like fluency", "no repetition needed",
      "use advanced examples and cultural references")
  }

  /** The six levels have six different styles; their vocabulary guidance
      alone tells them apart. */
  lemma StylesDistinct(a: Level, b: Level)
    requires a != b
    ensures StyleOf(a) != StyleOf(b)
    ensures StyleOf(a).vocabulary != StyleOf(b).vocabulary
  {
    VocabularyLengths();
  }

  lemma VocabularyLengths()
    ensures |StyleOf(A1).vocabulary| == 25 && |StyleOf(A2).vocabulary| == 40
    ensures |StyleOf(B1).vocabulary| == 47 && |StyleOf(B2).vocabulary| == 57
    ensures |StyleOf(C1).vocabulary| == 56 && |StyleOf(C2).vocabulary| == 62
  {
  }

  /** `SPEECH_STYLES.get(cefr_level, SPEECH_STYLES["B1"])`: the table is keyed by the six level names. */
  function StyleFor(level: string): (s: SpeechStyle)
    ensures forall l: Level :: level == LevelName(l) ==> s == StyleOf(l)
    ensures ParseLevel(level).None? ==> s == StyleOf(B1)
  {
    assert forall l: Level :: ParseLevel(LevelName(l)) == Some(l) by {
      forall l: Level ensures ParseLevel(LevelName(l)) == Some(l) {
        ParseLevelName(l);
      }
    }
    match ParseLevel(level)
    case Some(l) => StyleOf(l)
    case None => StyleOf(B1)
  }

  // ---------------------------------------------------------------------------
  // Lessons

  /** `LESSON_SCENARIOS`, in the dictionary's insertion order. */
  const LessonScenarios: seq<(string, string)> := [
    ("coffee_shop", "Order coffee and pastries at a busy cafe"),
    ("hotel_check_in", "Check into a luxury hotel"),
    ("restaurant_booking", "Make a reservation at an upscale restaurant"),
    ("shopping_assistant", "Shop for clothes with a sales associate")
  ]

  /** The keys of `LESSON_SCENARIOS`. */
  function LessonIds(): set<string> {
    set i | 0 <= i < |LessonScenarios| :: LessonScenarios[i].0
  }

  /** `LESSON_SCENARIOS.get(lesson_id, default)`. */
  function ScenarioOr(lessonId: string, default: string): (d: string)
    ensures lessonId !in LessonIds() ==> d == default
    ensures forall i :: 0 <= i < |LessonScenarios| && LessonScenarios[i].0 == lessonId ==> d == LessonScenarios[i].1
  {
    if lessonId == LessonScenarios[0].0 then LessonScenarios[0].1
    else if lessonId == LessonScenarios[1].0 then LessonScenarios[1].1
    else if lessonId == LessonScenarios[2].0 then LessonScenarios[2].1
    else if lessonId == LessonScenarios[3].0 then LessonScenarios[3].1
    else default
  }

  /** The instruction block every role-play template starts with. */
  function BaseInstruction(level: string, style: SpeechStyle): Template {
    [ Fixed(ImportantLevel), Value(level), Fixed(AdaptUse), Value(style.vocabulary),
      Fixed(StructureWith), Value(style.sentenceStructure), Fixed(FocusOn), Value(style.complexity),
      Fixed(Bullet), Value(style.speed), Fixed(Bullet), Value(style.repetition),
      Fixed(Bullet), Value(style.examples), Fixed(Newline) ]
  }

  /** A lesson's character: who the model plays, and the speaker label that ends the prompt. */
  datatype Persona = Persona(description: string, speaker: string)

  function PersonaOf(lessonId: string): Persona {
    if lessonId == "coffee_shop" then
      Persona("You are a friendly and patient language learning partner role-playing a character.\n"
              + "Your current role: A barista in a busy cafe in Philadelphia, United States\n"
              + "Have a natural, flowing conversation with the user who is trying to order something.\n"
              + "- Only respond as the barista. Do not break character or provide corrections.\n"
              + "- Keep your replies short and clear.\n", "Barista")
    else if lessonId == "hotel_check_in" then
      Persona("You are a professional and helpful hotel concierge in Chicago, United States\n"
              + "Your current role: A front desk agent at a luxury resort.\n"
              + "The user is a guest trying to check into the hotel. Guide them through the process.\n"
              + "- Only respond as the concierge. Do not break character.\n"
              + "- You can ask them for their name, reservation number, and if they need help with their bags.\n", "Concierge")
    else if lessonId == "restaurant_booking" then
      Persona("You are a friendly restaurant host in New York City.\n"
              + "Your current role: A host at an upscale restaurant taking reservations and helping customers.\n"
              + "The user wants to make a reservation or ask about the restaurant.\n"
              + "- Only respond as the restaurant host. Do not break character.\n"
              + "- You can ask about party size, preferred time, special occasions, dietary restrictions.\n", "Host")
    else
      Persona("You are a helpful sales associate at a clothing store in Los Angeles.\n"
              + "Your current role: A friendly store employee helping customers find what they need.\n"
              + "The user is shopping for clothes and needs assistance.\n"
              + "- Only respond as the sales associate. Do not break character.\n"
              + "- You can ask about size, color preferences, occasion, budget, and style.\n", "Sales Associate")
  }

  /** The role-player template of one lesson: the level and every style
      field substituted into the instruction block, then the persona, the
      level again, the two placeholders and the speaker cue. */
  function RoleplayerTemplate(level: string, style: SpeechStyle, p: Persona): (t: Template)
    ensures |t| == 27
    ensures t[LevelAt] == Value(level) && t[19] == Value(level)
    ensures t[4] == Value(style.vocabulary) && t[6] == Value(style.sentenceStructure)
            && t[8] == Value(style.complexity) && t[10] == Value(style.speed)
            && t[12] == Value(style.repetition) && t[14] == Value(style.examples)
    ensures t[17] == Value(p.description) && t[25] == Value(p.speaker)
    ensures t[HistoryAt] == Slot("history") && t[UserInputAt] == Slot("user_input")
  {
    [Fixed(Newline)] + BaseInstruction(level, style) + RoleplayerTail(level, p)
  }

  /** Everything after the instruction block: the persona, the level, then
      the two placeholders around the user label, then the speaker cue. */
  function RoleplayerTail(level: string, p: Persona): Template {
    [ Fixed(BlankLine), Value(p.description), Fixed(AdjustTo), Value(level), Fixed(ProficiencyThenHistory) ]
    + [Slot("history")] + [Fixed(UserLabel)] + [Slot("user_input")]
    + [ Fixed(Newline), Value(p.speaker), Fixed(SpeakerEnd) ]
  }

  /** Where the level, `{history}` and `{user_input}` sit in a role-player template. */
  const LevelAt := 2
  const HistoryAt := 21
  const UserInputAt := 23

  lemma RoleplayerShape(level: string, style: SpeechStyle, p: Persona)
    ensures var t := RoleplayerTemplate(level, style, p);
            && |t| == 27
            && t[LevelAt] == Value(level)
            && t[HistoryAt] == Slot("history")
            && t[UserInputAt] == Slot("user_input")
            && SlotCount(t, "history") == 1
            && SlotCount(t, "user_input") == 1
  {
    var head := [Fixed(Newline)] + BaseInstruction(level, style);
    var opening := [ Fixed(BlankLine), Value(p.description), Fixed(AdjustTo), Value(level), Fixed(ProficiencyThenHistory) ];
    var closing := [ Fixed(Newline), Value(p.speaker), Fixed(SpeakerEnd) ];
    var userLabel := [Fixed(UserLabel)];
    assert SlotFree(head);
    assert SlotFree(opening) && SlotFree(userLabel) && SlotFree(closing);
    SlotCountAppend(head, RoleplayerTail(level, p), "history");
    SlotCountAppend(head, RoleplayerTail(level, p), "user_input");
    SlotCountAround(opening, Slot("history"), userLabel, Slot("user_input"), closing, "history");
    SlotCountAround(opening, Slot("history"), userLabel, Slot("user_input"), closing, "user_input");
    SlotFreeCount(head, "history");
    SlotFreeCount(head, "user_input");
    SlotFreeCount(opening, "history");
    SlotFreeCount(opening, "user_input");
    SlotFreeCount(userLabel, "history");
    SlotFreeCount(userLabel, "user_input");
    SlotFreeCount(closing, "history");
    SlotFreeCount(closing, "user_input");
  }

  /** `get_adaptive_lesson_config`: lesson id to role-player template. */
  function LessonConfig(level: string): (config: map<string, Template>)
    ensures config.Keys == LessonIds()
    ensures forall id :: id in config ==> config[id] == RoleplayerTemplate(level, StyleFor(level), PersonaOf(id))
  {
    var style := StyleFor(level);
    map id | id in LessonIds() :: RoleplayerTemplate(level, style, PersonaOf(id))
  }

  /** There are four lessons, the same four the scenario table describes. */
  lemma FourLessons()
    ensures LessonIds() == {"coffee_shop", "hotel_check_in", "restaurant_booking", "shopping_assistant"}
    ensures |LessonIds()| == 4
  {
    assert LessonScenarios[0].0 == "coffee_shop";
    assert LessonScenarios[1].0 == "hotel_check_in";
    assert LessonScenarios[2].0 == "restaurant_booking";
    assert LessonScenarios[3].0 == "shopping_assistant";
    var a: set<string> := {"coffee_shop"};
    var b := a + {"hotel_check_in"};
    var c := b + {"restaurant_booking"};
    var d := c + {"shopping_assistant"};
    assert |"coffee_shop"| != |"hotel_check_in"|;
    assert |b| == 2;
    assert "restaurant_booking" !in b by {
      assert |"restaurant_booking"| == 18;
    }
    assert |c| == 3;
    assert "shopping_assistant" !in c by {
      assert "restaurant_booking"[0] == 'r';
    }
    assert |d| == 4;
  }

  /** Every role-player template has exactly one `{history}` slot and one
      `{user_input}` slot, whose literal text appears in the rendering, and
      names the level verbatim, whatever string the level is. A level that
      itself contains braces adds text the prompt library would parse too;
      that is not counted here. */
  lemma RoleplayerKeepsPlaceholders(level: string, id: string)
    requires id in LessonIds()
    ensures Contains(Render(LessonConfig(level)[id]), SlotText("history"))
    ensures Contains(Render(LessonConfig(level)[id]), SlotText("user_input"))
    ensures Contains(Render(LessonConfig(level)[id]), level)
    ensures SlotCount(LessonConfig(level)[id], "history") == 1
    ensures SlotCount(LessonConfig(level)[id], "user_input") == 1
  {
    var t := LessonConfig(level)[id];
    RoleplayerShape(level, StyleFor(level), PersonaOf(id));
    PieceRendered(t, HistoryAt);
    PieceRendered(t, UserInputAt);
    PieceRendered(t, LevelAt);
  }

  /** An unknown level gets the B1 style while its own name is still the one written into the prompt. */
  lemma UnknownLevelFallsBackToB1(level: string, id: string)
    requires ParseLevel(level).None? && id in LessonIds()
    ensures LessonConfig(level)[id] == RoleplayerTemplate(level, StyleOf(B1), PersonaOf(id))
    ensures LessonConfig(level)[id][LevelAt] == Value(level)
  {
    RoleplayerShape(level, StyleOf(B1), PersonaOf(id));
  }

  // ---------------------------------------------------------------------------
  // Corrector

  /** `get_corrector_prompt_template`: the instructions, the sentence to
      analyse, the answer format, and the sentence again. */
  /** The corrector template: the level and the level's vocabulary and
      example wording, the user's sentence twice, and the JSON instructions. */
  function CorrectorTemplate(level: string): (t: Template)
    ensures |t| == 17
    ensures t[1] == Value(level) && t[5] == Value(level) && t[11] == Value(level) && t[13] == Value(level)
    ensures t[3] == Value(StyleFor(level).vocabulary) && t[7] == Value(StyleFor(level).examples)
    ensures t[9] == Slot("user_input") && t[15] == Slot("user_input")
  {
    var style := StyleFor(level);
    [ Fixed(CorrectorIntro), Value(level), Fixed(AdjustFeedback), Value(style.vocabulary),
      Fixed(InExplanationsFocus), Value(level), Fixed(LearnersBullet), Value(style.examples),
      Fixed(AnalyzeSentence) ]
    + [Slot("user_input")]
    + [ Fixed(ResponseFormat), Value(level), Fixed(PerfectTip), Value(level), Fixed(ComplimentAnalyze) ]
    + [Slot("user_input")]
    + [Fixed(JsonResponse)]
  }

  /** The corrector template asks about the user's sentence in exactly two
      places, which appear one after the other in the rendered prompt. */
  lemma CorrectorPlaceholders(level: string)
    ensures SlotCount(CorrectorTemplate(level), "user_input") == 2
    ensures exists p1: nat, p2: nat :: p1 + |SlotText("user_input")| <= p2
              && OccursAt(Render(CorrectorTemplate(level)), SlotText("user_input"), p1)
              && OccursAt(Render(CorrectorTemplate(level)), SlotText("user_input"), p2)
  {
    CorrectorSlots(level);
    CorrectorSlotsInOrder(level);
  }

  /** The corrector names the level verbatim, whatever string it is. */
  lemma CorrectorNamesLevel(level: string)
    ensures Contains(Render(CorrectorTemplate(level)), level)
  {
    var t := CorrectorTemplate(level);
    assert t[1] == Value(level);
    PieceRendered(t, 1);
    assert OccursAt(Render(t), level, |Concat(Texts(t)[..1])|);
  }

  /** An unknown level gets the B1 style's wording in the corrector too. */
  lemma CorrectorFallsBackToB1(level: string)
    requires ParseLevel(level).None?
    ensures CorrectorTemplate(level)[3] == Value(StyleOf(B1).vocabulary)
    ensures CorrectorTemplate(level)[7] == Value(StyleOf(B1).examples)
  {
  }

  lemma CorrectorSlotsInOrder(level: string)
    ensures exists p1: nat, p2: nat :: p1 + |SlotText("user_input")| <= p2
              && OccursAt(Render(CorrectorTemplate(level)), SlotText("user_input"), p1)
              && OccursAt(Render(CorrectorTemplate(level)), SlotText("user_input"), p2)
  {
    var t := CorrectorTemplate(level);
    var ts := Texts(t);
    PieceRendered(t, 9);
    PieceRendered(t, 15);
    ConcatPrefix(ts[..15], 9);
    assert ts[..15][..9] == ts[..9];
    var p1 := |Concat(ts[..9])|;
    var p2 := |Concat(ts[..15])|;
    assert OccursAt(Render(t), SlotText("user_input"), p1);
    assert OccursAt(Render(t), SlotText("user_input"), p2);
  }

  lemma CorrectorSlots(level: string)
    ensures SlotCount(CorrectorTemplate(level), "user_input") == 2
  {
    var style := StyleFor(level);
    var intro := [ Fixed(CorrectorIntro), Value(level), Fixed(AdjustFeedback), Value(style.vocabulary),
                   Fixed(InExplanationsFocus), Value(level), Fixed(LearnersBullet), Value(style.examples),
                   Fixed(AnalyzeSentence) ];
    var format := [ Fixed(ResponseFormat), Value(level), Fixed(PerfectTip), Value(level), Fixed(ComplimentAnalyze) ];
    var closing := [Fixed(JsonResponse)];
    assert SlotFree(intro) && SlotFree(format) && SlotFree(closing);
    SlotCountAround(intro, Slot("user_input"), format, Slot("user_input"), closing, "user_input");
    SlotFreeCount(intro, "user_input");
    SlotFreeCount(format, "user_input");
    SlotFreeCount(closing, "user_input");
  }
}

=== FILE: adaptive_survey.dfy ===
/** The sequential six-question CEFR assessment of test_backend/adaptive_survey.py.
    The state walks the question list with an index and collects answers;
    after the last answer the whole transcript goes to the LLM examiner, an
    oracle given as a function from the transcript it is sent to its verdict
    (`None` when it raised). */
module AdaptiveSurvey {
  import opened Common

  datatype Question = Question(level: Level, text: string)

  /** `CEFR_QUESTIONS`: one question per level, from A1 up to C2. */
  const CefrQuestions: seq<Question> := [
    Question(A1, "To begin, please introduce yourself. What is your name and where are you from?"),
    Question(A2, "Thank you. Now, please describe your favorite season. What is the weather like and what do you enjoy doing during that time?"),
    Question(B1, "Next, tell me about a skill you would like to learn in the future. Why do you want to learn it and how would you start?"),
    Question(B2, "Let's move to a more detailed topic. What are the most important qualities of a good friend? Please explain your viewpoint with supporting reasons."),
    Question(C1, "Now for a complex subject. 'It is more important to be happy than to be successful.' Discuss this statement, presenting arguments for and against."),
    Question(C2, "Finally, a question requiring abstract thought. Analyze the relationship between individual freedom and societal responsibility. How should a community balance the rights of a person with the needs of the group?")
  ]

  /** There are six questions and the i-th one is pitched at the i-th CEFR level. */
  lemma QuestionsInLevelOrder()
    ensures |CefrQuestions| == 6
    ensures forall i :: 0 <= i < |CefrQuestions| ==> Rank(CefrQuestions[i].level) == i
  {
  }

  datatype Stage = Welcome | InProgress | Evaluating | Complete | Error | Other(name: string)

  function StageName(s: Stage): string {
    match s
    case Welcome => "welcome"
    case InProgress => "assessment_in_progress"
    case Evaluating => "evaluating"
    case Complete => "complete"
    case Error => "error"
    case Other(name) => name
  }

  datatype Analysis = Analysis(grammar: int, vocabulary: int, complexity: int, coherence: int)

  datatype AssessmentResult = AssessmentResult(
    analysis: Analysis,
    thresholdAnalysis: string,
    feedbackForUser: string,
    level: Level,
    assessmentComplete: bool)

  /** The LLM examiner: its verdict on a transcript, None when the call raised. */
  type Examiner = string -> Option<AssessmentResult>

  /** The bot's utterances; `Text` renders them. */
  datatype Message =
    | Intro
    | Ask(index: nat)
    | Analyzing
    | Graded(level: Level, threshold: string, feedback: string)
    | EvaluationFailed
    | AlreadyComplete

  /** Decimal rendering of a one-digit number. */
  function Digit(n: nat): string
    requires n < 10
  {
    [(('0' as int) + n) as char]
  }

  function Text(m: Message): string {
    match m
    case Intro =>
      "Welcome to the English proficiency assessment.\n"
      + "I will ask you a series of " + Digit(|CefrQuestions|) + " questions, from beginner (A1) to advanced (C2). "
      + "Please answer each one to the best of your ability.\n"
      + "This assessment will help me understand your proficiency level and adapt my teaching style accordingly.\n"
      + "Press Enter or send a message to begin."
    case Ask(i) =>
      if i < |CefrQuestions| then
        "**Question " + Digit(i + 1) + "/" + Digit(|CefrQuestions|) + " (Level: " + LevelName(CefrQuestions[i].level)
        + ")**\n\n" + CefrQuestions[i].text
      else ""
    case Analyzing => "Thank you. All questions are complete. Analyzing your responses against the CEFR framework now..."
    case Graded(level, threshold, feedback) =>
      "**Assessment Complete**\n\n**Final CEFR Grade:** `" + LevelName(level) + "`\n\n**Examiner's Note:** " + threshold
      + "\n\n**Overall Feedback:** " + feedback + "\n\n**Your lessons will now be adapted to your "
      + LevelName(level) + " proficiency level.**\n"
    case EvaluationFailed =>
      "Sorry, I encountered an error while analyzing your responses. Please try restarting the assessment."
    case AlreadyComplete => "The assessment is complete. You can now start your lesson with adapted difficulty level."
  }

  datatype State = State(
    stage: Stage,
    questionIndex: nat,
    answers: seq<string>,
    finalResult: Option<AssessmentResult>,
    botMessage: Message)

  /** `get_initial_assessment_state`. */
  function InitialState(): (s: State)
    ensures s.stage == Welcome && s.questionIndex == 0 && s.answers == [] && s.finalResult == None
  {
    State(Welcome, 0, [], None, Intro)
  }

  // ---------------------------------------------------------------------------
  // The evaluation transcript

  const NoAnswer := "(No answer provided)"

  /** The answer reported for question `i`: the recorded one, or the placeholder. */
  function AnswerAt(answers: seq<string>, i: nat): (a: string)
    ensures i < |answers| ==> a == answers[i]
    ensures i >= |answers| ==> a == NoAnswer
  {
    if i < |answers| then answers[i] else NoAnswer
  }

  function Block(q: Question, answer: string): string {
    "Question (for CEFR Level " + LevelName(q.level) + "): " + q.text + "\nUser's Answer: " + answer + "\n\n"
  }

  /** The pieces of the transcript: exactly one block per question, in question order. */
  function Blocks(answers: seq<string>): (b: seq<string>)
    ensures |b| == |CefrQuestions|
    ensures forall i :: 0 <= i < |b| ==> b[i] == Block(CefrQuestions[i], AnswerAt(answers, i))
  {
    seq(|CefrQuestions|, i requires 0 <= i < |CefrQuestions| => Block(CefrQuestions[i], AnswerAt(answers, i)))
  }

  /** The transcript the examiner receives after the last question. */
  function Transcript(answers: seq<string>): string {
    Concat(Blocks(answers))
  }

  /** The loop of adaptive_survey.py: one `+=` per question. */
  method BuildTranscript(answers: seq<string>) returns (t: string)
    ensures t == Transcript(answers)
  {
    var blocks := Blocks(answers);
    t := "";
    var i := 0;
    while i < |CefrQuestions|
      invariant 0 <= i <= |CefrQuestions|
      invariant t == Concat(blocks[..i])
    {
      assert blocks[..i + 1][..i] == blocks[..i];
      t := t + blocks[i];
      i := i + 1;
    }
    assert blocks[..i] == blocks;
  }

  /** Question `i` appears in the transcript with its answer, or with the
      placeholder when that answer is missing. */
  lemma TranscriptHasEveryQuestion(answers: seq<string>, i: nat)
    requires i < |CefrQuestions|
    ensures Contains(Transcript(answers), Block(CefrQuestions[i], AnswerAt(answers, i)))
  {
    var b := Blocks(answers);
    ConcatPrefix(b, i);
    var off := |Concat(b[..i])|;
    assert off <= |Transcript(answers)|;
  }

  lemma TranscriptHasAllQuestions(answers: seq<string>)
    ensures forall i :: 0 <= i < |CefrQuestions| ==>
              Contains(Transcript(answers), Block(CefrQuestions[i], AnswerAt(answers, i)))
  {
    forall i | 0 <= i < |CefrQuestions|
      ensures Contains(Transcript(answers), Block(CefrQuestions[i], AnswerAt(answers, i)))
    {
      TranscriptHasEveryQuestion(answers, i);
    }
  }

  // ---------------------------------------------------------------------------
  // The step function

  /** Whether a turn from `st` calls the examiner. */
  predicate Evaluates(st: State) {
    st.stage != Complete && st.questionIndex >= |CefrQuestions|
  }

  /** The answer list after the answer-recording step of a turn. */
  function Recorded(input: string, st: State): seq<string> {
    if st.stage == InProgress then st.answers + [input] else st.answers
  }

  /** The transcript sent to the examiner on this turn, if the turn evaluates:
      it carries every question with the answer recorded for it, including
      the one given on this very turn. */
  function ExaminerRequest(input: string, st: State): (r: Option<string>)
    ensures r.Some? <==> Evaluates(st)
    ensures r.Some? ==> r.value == Transcript(Recorded(input, st))
    ensures r.Some? ==> forall i :: 0 <= i < |CefrQuestions| ==>
                          Contains(r.value, Block(CefrQuestions[i], AnswerAt(Recorded(input, st), i)))
  {
    if Evaluates(st) then
      TranscriptHasAllQuestions(Recorded(input, st));
      Some(Transcript(Recorded(input, st)))
    else None
  }

  /** `process_assessment_turn`; the examiner is consulted only on
      `ExaminerRequest(input, st)`. */
  function ProcessAssessmentTurn(input: string, st: State, examiner: Examiner): (r: State)
    // complete is absorbing: only the bot message may differ
    ensures st.stage == Complete ==> r.(botMessage := st.botMessage) == st
    // an answer is recorded only when a question was outstanding
    ensures st.stage != Complete ==> r.answers == Recorded(input, st)
    // asking a question moves the index by exactly one
    ensures st.stage != Complete && st.questionIndex < |CefrQuestions| ==>
              r.questionIndex == st.questionIndex + 1 && r.stage == InProgress && r.finalResult == st.finalResult
    // after the last question: the examiner decides between complete and error
    ensures Evaluates(st) ==> r.questionIndex == st.questionIndex
    ensures Evaluates(st) && examiner(ExaminerRequest(input, st).value).Some? ==>
              r.stage == Complete && r.finalResult == examiner(ExaminerRequest(input, st).value)
    ensures Evaluates(st) && examiner(ExaminerRequest(input, st).value).None? ==>
              r.stage == Error && r.finalResult == st.finalResult
    // what the bot says next
    ensures st.stage == Complete ==> r.botMessage == AlreadyComplete
    ensures st.stage != Complete && st.questionIndex < |CefrQuestions| ==> r.botMessage == Ask(st.questionIndex)
    ensures Evaluates(st) && examiner(ExaminerRequest(input, st).value).Some? ==>
              var v := examiner(ExaminerRequest(input, st).value).value;
              r.botMessage == Graded(v.level, v.thresholdAnalysis, v.feedbackForUser)
    ensures Evaluates(st) && examiner(ExaminerRequest(input, st).value).None? ==> r.botMessage == EvaluationFailed
  {
    if st.stage == Complete then
      st.(botMessage := AlreadyComplete)
    else
      var s1 := st.(answers := Recorded(input, st));
      if s1.questionIndex < |CefrQuestions| then
        s1.(botMessage := Ask(s1.questionIndex), questionIndex := s1.questionIndex + 1, stage := InProgress)
      else
        var s2 := s1.(stage := Evaluating, botMessage := Analyzing);
        match examiner(Transcript(s1.answers))
        case Some(result) =>
          s2.(finalResult := Some(result), botMessage := Graded(result.level, result.thresholdAnalysis, result.feedbackForUser),
              stage := Complete)
        case None =>
          s2.(botMessage := EvaluationFailed, stage := Error)
  }

  // ---------------------------------------------------------------------------
  // Runs from the initial state

  datatype Turn = Turn(input: string, examiner: Examiner)

  function Run(st: State, turns: seq<Turn>): State
    decreases |turns|
  {
    if |turns| == 0 then st
    else
      var last := turns[|turns| - 1];
      ProcessAssessmentTurn(last.input, Run(st, turns[..|turns| - 1]), last.examiner)
  }

  /** The inputs of a run, in order. */
  function Inputs(turns: seq<Turn>): (r: seq<string>)
    ensures |r| == |turns|
    ensures forall i :: 0 <= i < |turns| ==> r[i] == turns[i].input
  {
    seq(|turns|, i requires 0 <= i < |turns| => turns[i].input)
  }

  /** The states a run from `InitialState` can reach. */
  predicate Reachable(s: State) {
    || (s.stage == Welcome && s.questionIndex == 0 && s.answers == [] && s.finalResult.None?)
    || (s.stage == InProgress && 1 <= s.questionIndex <= |CefrQuestions| && |s.answers| == s.questionIndex - 1
        && s.finalResult.None?)
    || (s.stage == Error && s.questionIndex == |CefrQuestions| && |s.answers| == |CefrQuestions| && s.finalResult.None?)
    || (s.stage == Complete && s.questionIndex == |CefrQuestions| && |s.answers| == |CefrQuestions| && s.finalResult.Some?)
  }

  lemma ReachableStep(input: string, st: State, examiner: Examiner)
    requires Reachable(st)
    ensures Reachable(ProcessAssessmentTurn(input, st, examiner))
  {
  }

  /** In every reachable state the index stays within the question list,
      `complete` carries a result, and the transient `evaluating` stage is never seen. */
  lemma {:induction false} RunReachable(turns: seq<Turn>)
    ensures Reachable(Run(InitialState(), turns))
    ensures Run(InitialState(), turns).questionIndex <= |CefrQuestions|
    ensures Run(InitialState(), turns).stage == Complete ==> Run(InitialState(), turns).finalResult.Some?
  {
    if |turns| > 0 {
      var last := turns[|turns| - 1];
      RunReachable(turns[..|turns| - 1]);
      ReachableStep(last.input, Run(InitialState(), turns[..|turns| - 1]), last.examiner);
    }
  }

  /** After k <= 6 turns the index is k and the answers are the inputs of
      turns 2..k (the welcome turn records nothing); the 7th turn records
      the 6th answer and evaluates. */
  lemma {:induction false} OpeningRun(turns: seq<Turn>)
    requires |turns| <= |CefrQuestions| + 1
    ensures var s := Run(InitialState(), turns);
            && (|turns| <= |CefrQuestions| ==> s.questionIndex == |turns|)
            && (|turns| == 0 ==> s.stage == Welcome && s.answers == [])
            && (1 <= |turns| <= |CefrQuestions| ==> s.stage == InProgress)
            && (|turns| >= 1 ==> s.answers == Inputs(turns)[1..])
            && (|turns| == |CefrQuestions| + 1 ==> s.questionIndex == |CefrQuestions| && (s.stage == Complete || s.stage == Error))
  {
    var n := |turns|;
    if n > 0 {
      var prefix := turns[..n - 1];
      OpeningRun(prefix);
      var prev := Run(InitialState(), prefix);
      if n >= 2 {
        assert Inputs(turns)[1..] == Inputs(prefix)[1..] + [turns[n - 1].input];
      } else {
        assert Inputs(turns)[1..] == [];
      }
    }
  }

  /** A failed evaluation is not terminal: the next turn records nothing,
      asks the examiner again with the same transcript, and completes with
      its verdict if it answers this time. */
  lemma ErrorRetries(input: string, st: State, examiner: Examiner)
    requires Reachable(st) && st.stage == Error
    ensures ProcessAssessmentTurn(input, st, examiner).answers == st.answers
    ensures ExaminerRequest(input, st) == Some(Transcript(st.answers))
    ensures examiner(Transcript(st.answers)).Some? ==>
              ProcessAssessmentTurn(input, st, examiner).stage == Complete
              && ProcessAssessmentTurn(input, st, examiner).finalResult == examiner(Transcript(st.answers))
  {
  }

  // ---------------------------------------------------------------------------
  // One-shot assessments

  /** The transcript the one-shot helpers send, or None when they refuse:
      each question paired with the response at its position. */
  function QuickRequest(responses: seq<string>): (r: Option<string>)
    ensures r.Some? <==> |responses| == |CefrQuestions|
    ensures r.Some? ==> r.value == Transcript(responses)
    ensures r.Some? ==> forall i :: 0 <= i < |CefrQuestions| ==>
                          Contains(r.value, Block(CefrQuestions[i], responses[i]))
  {
    if |responses| != |CefrQuestions| then None
    else
      TranscriptHasAllQuestions(responses);
      Some(Transcript(responses))
  }

  /** `run_quick_assessment`: the examiner's level, or None on a wrong count
      of responses or on examiner failure. */
  function RunQuickAssessment(responses: seq<string>, examiner: Examiner): (r: Option<Level>)
    ensures r.Some? <==> |responses| == |CefrQuestions| && examiner(QuickRequest(responses).value).Some?
    ensures r.Some? ==> r.value == examiner(QuickRequest(responses).value).value.level
  {
    if |responses| != |CefrQuestions| then None
    else
      match examiner(Transcript(responses))
      case Some(result) => Some(result.level)
      case None => None
  }

  /** `get_assessment_result_details`: the whole verdict, under the same guard. */
  function GetAssessmentResultDetails(responses: seq<string>, examiner: Examiner): (r: Option<AssessmentResult>)
    ensures r.Some? <==> |responses| == |CefrQuestions| && examiner(QuickRequest(responses).value).Some?
    ensures r.Some? ==> r == examiner(QuickRequest(responses).value)
  {
    if |responses| != |CefrQuestions| then None else examiner(Transcript(responses))
  }

  /** With all six answers present the one-shot transcript uses them
      verbatim and matches the one the sequential survey builds. */
  lemma QuickTranscriptUsesAnswers(responses: seq<string>, i: nat)
    requires |responses| == |CefrQuestions| && i < |CefrQuestions|
    ensures Blocks(responses)[i] == Block(CefrQuestions[i], responses[i])
  {
  }
}

=== FILE: chains.dfy ===
/** `ConversationManager` of backend/chains.py: the survey of survey.py
    gates every turn until it completes; the completing turn adopts the
    assessed level and builds a lesson chain from an LLM-generated scenario;
    later turns go to the lesson chain and are remembered.

    The evaluator, the scenario generator and the lesson chain are oracles
    (`Oracles`). chains.py has no `try` around them, so a failing call
    raises out of `chat` after the fields assigned before it have already
    changed; `Raised` carries that partially updated manager. */
module Chains {
  import opened Common
  import Survey

  /** What the scenario LLM returns. */
  datatype Scenario = Scenario(roleplayerTemplate: string, description: string)

  /** The lesson chain: the role-player prompt and the level it was built for. */
  datatype LessonChain = LessonChain(roleplayerTemplate: string, cefrLevel: string)

  /** The corrector's JSON; either key may be missing. */
  datatype Feedback = Feedback(correction: Option<string>, explanation: Option<string>)

  /** What one lesson-chain invocation returns. */
  datatype LessonReply = LessonReply(reply: string, feedback: Feedback)

  /** The reply text of a turn, kept symbolic; `ReplyText` renders it. */
  datatype Reply =
    | SurveyReply(message: Survey.Message)
    | AssessmentDone(level: string, scenarioDescription: string, message: Survey.Message)
    | LessonText(text: string)

  function ReplyText(r: Reply): string {
    match r
    case SurveyReply(m) => Survey.Text(m)
    case AssessmentDone(level, description, m) =>
      "Assessment complete. Your CEFR level is " + level + ". " + description
      + " We can now begin the roleplay. " + Survey.Text(m)
    case LessonText(text) => text
  }

  /** The dictionary `chat` returns: a missing key is `None`. */
  datatype ChatResponse = ChatResponse(reply: Option<Reply>, feedback: Option<Feedback>)

  datatype Manager = Manager(
    survey: Survey.State,
    cefrLevel: string,
    chain: Option<LessonChain>,
    memory: seq<(string, string)>,
    scenarioDescription: string)

  const DefaultLevel := "A1"

  /** `ConversationManager.__init__`. */
  function NewManager(): (m: Manager)
    ensures m.survey == Survey.InitialState()
    ensures m.cefrLevel == DefaultLevel && m.chain == None && m.memory == [] && m.scenarioDescription == ""
  {
    Manager(Survey.InitialState(), DefaultLevel, None, [], "")
  }

  /** Why `chat` raised. */
  datatype Failure =
    | NoFinalResult   // subscripting a missing final result
    | ScenarioFailed  // the scenario LLM raised
    | NoLessonChain   // the survey is complete but no chain was ever built
    | LessonFailed    // the lesson chain raised

  datatype ChatOutcome =
    | Replied(manager: Manager, response: ChatResponse)
    | Raised(manager: Manager, failure: Failure)

  /** The answers of the external calls one `chat` may make. */
  datatype Oracles = Oracles(
    verdict: Option<Survey.AssessmentResult>,
    scenario: Option<Scenario>,
    lesson: Option<LessonReply>)

  /** `ConversationManager.chat`. */
  function Chat(m: Manager, input: string, o: Oracles): (r: ChatOutcome)
    // while the survey runs, the turn is a survey turn: a reply and no feedback key, nothing remembered
    ensures m.survey.stage != Survey.Complete ==>
              && r.manager.survey == Survey.ProcessTurn(input, m.survey, o.verdict)
              && r.manager.memory == m.memory
              && (r.Replied? ==> r.response.feedback.None?)
    // a survey turn answers with the survey's next message; the completing
    // turn announces the level and the scenario before that message
    ensures m.survey.stage != Survey.Complete && r.Replied? ==>
              r.response.reply == Some(if r.manager.survey.stage == Survey.Complete
                                       then AssessmentDone(r.manager.cefrLevel, r.manager.scenarioDescription,
                                                           r.manager.survey.botMessage)
                                       else SurveyReply(r.manager.survey.botMessage))
    // a turn that leaves the survey running touches nothing but the survey
    ensures m.survey.stage != Survey.Complete && r.manager.survey.stage != Survey.Complete ==>
              r.Replied? && r.manager == m.(survey := r.manager.survey)
    // the completing turn builds the lesson chain from the generated scenario at the assessed level
    ensures m.survey.stage != Survey.Complete && r.manager.survey.stage == Survey.Complete && r.Replied? ==>
              && o.scenario.Some?
              && r.manager.chain == Some(LessonChain(o.scenario.value.roleplayerTemplate, r.manager.cefrLevel))
              && r.manager.scenarioDescription == o.scenario.value.description
    // it raises exactly when the final result is missing or the scenario call fails, before any chain is built
    ensures m.survey.stage != Survey.Complete && r.manager.survey.stage == Survey.Complete ==>
              && (r.Raised? <==> r.manager.survey.finalResult.None? || o.scenario.None?)
              && (r.Raised? ==> r.manager.chain == m.chain && r.manager.scenarioDescription == m.scenarioDescription)
              && (r.Raised? && r.manager.survey.finalResult.None? ==> r.failure == NoFinalResult)
              && (r.Raised? && r.manager.survey.finalResult.Some? ==> r.failure == ScenarioFailed)
    // the level changes only on the completing turn, to the assessed level
    ensures r.manager.cefrLevel != m.cefrLevel ==>
              && m.survey.stage != Survey.Complete
              && r.manager.survey.stage == Survey.Complete
              && r.manager.survey.finalResult.Some?
              && r.manager.cefrLevel == LevelName(r.manager.survey.finalResult.value.level)
    ensures m.survey.stage != Survey.Complete && r.manager.survey.stage == Survey.Complete
              && r.manager.survey.finalResult.Some? ==>
              r.manager.cefrLevel == LevelName(r.manager.survey.finalResult.value.level)
    // once complete, the survey is frozen and each successful turn is remembered exactly once
    ensures m.survey.stage == Survey.Complete ==> r.manager.survey == m.survey && r.manager.cefrLevel == m.cefrLevel
    ensures m.survey.stage == Survey.Complete && r.Replied? ==>
              && o.lesson.Some?
              && r.manager == m.(memory := m.memory + [(input, o.lesson.value.reply)])
              && r.response == ChatResponse(Some(LessonText(o.lesson.value.reply)), Some(o.lesson.value.feedback))
    ensures m.survey.stage == Survey.Complete && r.Raised? ==> r.manager == m
  {
    if m.survey.stage != Survey.Complete then
      var s := Survey.ProcessTurn(input, m.survey, o.verdict);
      var m1 := m.(survey := s);
      if s.stage == Survey.Complete then
        match s.finalResult
        case None => Raised(m1, NoFinalResult)
        case Some(result) =>
          var level := LevelName(result.level);
          var m2 := m1.(cefrLevel := level);
          match o.scenario
          case None => Raised(m2, ScenarioFailed)
          case Some(sc) =>
            var m3 := m2.(chain := Some(LessonChain(sc.roleplayerTemplate, level)), scenarioDescription := sc.description);
            Replied(m3, ChatResponse(Some(AssessmentDone(level, sc.description, s.botMessage)), None))
      else
        Replied(m1, ChatResponse(Some(SurveyReply(s.botMessage)), None))
    else
      match m.chain
      case None => Raised(m, NoLessonChain)
      case Some(_) =>
        match o.lesson
        case None => Raised(m, LessonFailed)
        case Some(lr) =>
          Replied(m.(memory := m.memory + [(input, lr.reply)]), ChatResponse(Some(LessonText(lr.reply)), Some(lr.feedback)))
  }

  /** What holds of every manager that `NewManager` and `Chat` can produce. */
  predicate Valid(m: Manager) {
    && Survey.Reachable(m.survey)
    && (m.survey.stage != Survey.Complete ==> m.cefrLevel == DefaultLevel && m.chain == None && m.memory == [])
    && (m.survey.stage == Survey.Complete ==> m.cefrLevel == LevelName(m.survey.finalResult.value.level))
    && (m.chain.Some? ==> m.survey.stage == Survey.Complete && m.chain.value.cefrLevel == m.cefrLevel)
  }

  lemma NewManagerValid()
    ensures Valid(NewManager())
  {
  }

  /** `chat` keeps a manager valid on every path, including the raising ones. */
  lemma ChatValid(m: Manager, input: string, o: Oracles)
    requires Valid(m)
    ensures Valid(Chat(m, input, o).manager)
  {
    if m.survey.stage != Survey.Complete {
      Survey.ReachableStep(input, m.survey, o.verdict);
    }
  }

  /** On a valid manager the missing-result crash cannot happen. */
  lemma NoMissingResult(m: Manager, input: string, o: Oracles)
    requires Valid(m)
    ensures Chat(m, input, o) != Raised(Chat(m, input, o).manager, NoFinalResult)
  {
    if m.survey.stage != Survey.Complete {
      Survey.ReachableStep(input, m.survey, o.verdict);
    }
  }

  /** If the scenario call fails on the completing turn, the manager is left
      complete but without a lesson chain, and every later turn raises. */
  lemma ScenarioFailureIsPermanent(m: Manager, input: string, o: Oracles, later: string, o2: Oracles)
    requires Valid(m) && m.survey.stage == Survey.Evaluation
    requires o.verdict.Some? && o.scenario.None?
    ensures Chat(m, input, o).Raised?
    ensures var broken := Chat(m, input, o).manager;
            broken.survey.stage == Survey.Complete && broken.chain.None?
            && Chat(broken, later, o2) == Raised(broken, NoLessonChain)
  {
  }

  /** The reply of the completing turn is never empty. */
  lemma AssessmentDoneNonEmpty(level: string, description: string, msg: Survey.Message)
    ensures ReplyText(AssessmentDone(level, description, msg)) != ""
  {
    assert |ReplyText(AssessmentDone(level, description, msg))| >= |"Assessment complete. "|;
  }

  // ---------------------------------------------------------------------------
  // Speech speed of `audio_output`, in tenths (0.7 is 7)

  const SpeedTable: map<string, nat> := map["A1" := 7, "A2" := 8, "B1" := 9, "B2" := 10, "C1" := 11, "C2" := 12]
  const DefaultSpeed: nat := 10

  /** `speed_mapping.get(cefr_level, 1.0)`: 0.7 + 0.1 per CEFR step, and
      1.0 for anything that is not a level name. */
  function SpeechSpeed(level: string): (speed: nat)
    ensures ParseLevel(level).Some? ==> speed == 7 + Rank(ParseLevel(level).value)
    ensures ParseLevel(level).None? ==> speed == DefaultSpeed
  {
    if level in SpeedTable then SpeedTable[level] else DefaultSpeed
  }

  /** A higher level is always spoken faster. */
  lemma SpeechSpeedStrictlyIncreasing(a: Level, b: Level)
    requires Rank(a) < Rank(b)
    ensures SpeechSpeed(LevelName(a)) < SpeechSpeed(LevelName(b))
  {
    ParseLevelName(a);
    ParseLevelName(b);
  }
}

=== FILE: common.dfy ===
/** Shared vocabulary of the model: optional values, the six CEFR levels,
    JavaScript-style blank strings and substring positions. */
module Common {

  /** A value that may be absent: Python's None, JavaScript's null/undefined. */
  datatype Option<+T> = None | Some(value: T) {
    function GetOr(default: T): T {
      match this
      case Some(v) => v
      case None => default
    }
  }

  /** The six CEFR proficiency tiers, from beginner to mastery. */
  datatype Level = A1 | A2 | B1 | B2 | C1 | C2

  /** Position of a level on the CEFR scale, A1 = 0 ... C2 = 5. */
  function Rank(l: Level): (r: nat)
    ensures r < 6
  {
    match l
    case A1 => 0
    case A2 => 1
    case B1 => 2
    case B2 => 3
    case C1 => 4
    case C2 => 5
  }

  /** The level's name as survey.py and chains.py spell it ("A1" ... "C2"). */
  function LevelName(l: Level): string {
    match l
    case A1 => "A1"
    case A2 => "A2"
    case B1 => "B1"
    case B2 => "B2"
    case C1 => "C1"
    case C2 => "C2"
  }

  /** Reads a level name back; anything other than the six names is None. */
  function ParseLevel(s: string): (r: Option<Level>)
    ensures r.Some? ==> LevelName(r.value) == s
  {
    if s == "A1" then Some(A1)
    else if s == "A2" then Some(A2)
    else if s == "B1" then Some(B1)
    else if s == "B2" then Some(B2)
    else if s == "C1" then Some(C1)
    else if s == "C2" then Some(C2)
    else None
  }

  lemma ParseLevelName(l: Level)
    ensures ParseLevel(LevelName(l)) == Some(l)
  {
  }

  /** Level names are exactly two characters long and pairwise distinct. */
  lemma LevelNamesInjective(l1: Level, l2: Level)
    ensures LevelName(l1) == LevelName(l2) <==> l1 == l2
  {
    ParseLevelName(l1);
    ParseLevelName(l2);
  }

  /** Characters JavaScript's String.prototype.trim removes (ASCII subset). */
  predicate IsSpace(c: char) {
    c == ' ' || c == '\t' || c == '\n' || c == '\r' || c == '\U{0B}' || c == '\U{0C}' || c == '\U{A0}'
  }

  /** `s.trim()` is the empty string, i.e. falsy in JavaScript. */
  predicate Blank(s: string) {
    forall i :: 0 <= i < |s| ==> IsSpace(s[i])
  }

  /** `sub` occurs in `s` starting at index `i`. */
  predicate OccursAt(s: string, sub: string, i: nat) {
    i + |sub| <= |s| && s[i..i + |sub|] == sub
  }

  predicate Contains(s: string, sub: string) {
    exists i: nat :: i <= |s| && OccursAt(s, sub, i)
  }

  /** Whatever surrounds it, a piece placed in a concatenation occurs at its offset. */
  lemma OccursInMiddle(a: string, sub: string, b: string)
    ensures OccursAt(a + sub + b, sub, |a|)
  {
    assert (a + sub + b)[|a|..|a| + |sub|] == sub;
  }

  lemma OccursShift(pre: string, s: string, post: string, sub: string, i: nat)
    requires OccursAt(s, sub, i)
    ensures OccursAt(pre + s + post, sub, |pre| + i)
  {
    var t := pre + s + post;
    assert t[|pre| + i..|pre| + i + |sub|] == s[i..i + |sub|];
  }

  /** Concatenation of a list of strings, built from the left as `+=` does. */
  function Concat(parts: seq<string>): string
    decreases |parts|
  {
    if |parts| == 0 then "" else Concat(parts[..|parts| - 1]) + parts[|parts| - 1]
  }

  /** Each part begins where the parts before it end. */
  lemma {:induction false} ConcatPrefix(parts: seq<string>, k: nat)
    requires k < |parts|
    ensures OccursAt(Concat(parts), parts[k], |Concat(parts[..k])|)
  {
    var n := |parts|;
    if k == n - 1 {
      assert parts[..n - 1] == parts[..k];
      OccursInMiddle(Concat(parts[..k]), parts[k], "");
      assert Concat(parts[..k]) + parts[k] + "" == Concat(parts);
    } else {
      var init := parts[..n - 1];
      assert init[..k] == parts[..k];
      ConcatPrefix(init, k);
      OccursShift("", Concat(init), parts[n - 1], parts[k], |Concat(init[..k])|);
      assert "" + Concat(init) + parts[n - 1] == Concat(parts);
    }
  }
}

=== FILE: demo_page.dfy ===
/** The demo page of frontend/src/pages/DemoPage.jsx: record a clip, send
    it, append the exchange to the conversation, show the feedback and play
    the spoken answer.

    Browser effects are parameters: whether `getUserMedia` succeeded, the
    recorded chunks, and what `fetch` produced (it threw, or a status with a
    body that did or did not parse). A field missing from the JSON body is
    None, as is `null`. */
module DemoPage {
  import opened Common

  datatype Role = UserRole | Assistant

  /** A conversation entry; its content comes from the response and may be missing. */
  datatype Entry = Entry(role: Role, content: Option<string>)

  /** The `feedback` object of a response. */
  datatype FeedbackData = FeedbackData(correction: Option<string>, explanation: Option<string>)

  /** An audio element of a spoken answer; it sounds while not paused. */
  datatype AudioHandle = AudioHandle(url: string, position: nat, paused: bool)

  /** A recorded chunk; only its size matters here. */
  datatype Chunk = Chunk(size: nat)

  datatype Demo = Demo(
    selectedLesson: string,
    isRecording: bool,
    isPlaying: bool,
    conversation: seq<Entry>,
    feedback: Option<FeedbackData>,
    isLoading: bool,
    error: string,
    hasRecorder: bool,  // `mediaRecorderRef.current` is set
    chunks: seq<Chunk>,
    audio: Option<AudioHandle>,     // `audioRef.current`
    orphans: seq<AudioHandle>,      // earlier elements `audioRef` no longer reaches, oldest first
    micHeld: bool)      // the microphone stream is open

  const MicError := "Could not access microphone. Please check permissions."
  const RequestError := "Failed to process audio. Please try again."

  function InitialDemo(): (d: Demo)
    ensures d.selectedLesson == "coffee_shop" && d.conversation == [] && d.feedback == None
    ensures !d.isRecording && !d.isPlaying && !d.isLoading && d.error == "" && !d.hasRecorder
    ensures d.audio == None && d.orphans == []
  {
    Demo("coffee_shop", false, false, [], None, false, "", false, [], None, [], false)
  }

  /** `startRecording`, given whether the microphone was granted. */
  function StartRecording(d: Demo, granted: bool): (r: Demo)
    ensures granted ==> r.chunks == [] && r.isRecording && r.error == "" && r.hasRecorder && r.micHeld
    ensures granted ==> r.conversation == d.conversation && r.feedback == d.feedback && r.isLoading == d.isLoading
    ensures !granted ==> r == d.(error := MicError)
  {
    if granted then d.(hasRecorder := true, chunks := [], isRecording := true, error := "", micHeld := true)
    else d.(error := MicError)
  }

  /** `ondataavailable`: every chunk is kept, empty or not. */
  function DataAvailable(d: Demo, size: nat): (r: Demo)
    ensures r.chunks == d.chunks + [Chunk(size)]
    ensures r.(chunks := d.chunks) == d
  {
    d.(chunks := d.chunks + [Chunk(size)])
  }

  /** `stopRecording`: acts only with a recorder and while recording. */
  function StopRecording(d: Demo): (r: Demo)
    ensures d.hasRecorder && d.isRecording ==> r == d.(isRecording := false)
    ensures !(d.hasRecorder && d.isRecording) ==> r == d
    ensures !r.isRecording || r == d
  {
    if d.hasRecorder && d.isRecording then d.(isRecording := false) else d
  }

  /** The record button: disabled while loading, otherwise it toggles. */
  function RecordButton(d: Demo, granted: bool): (r: Demo)
    ensures d.isLoading ==> r == d
    ensures !d.isLoading && d.isRecording ==> r == StopRecording(d)
    ensures !d.isLoading && !d.isRecording ==> r == StartRecording(d, granted)
  {
    if d.isLoading then d
    else if d.isRecording then StopRecording(d)
    else StartRecording(d, granted)
  }

  /** The fields of an `/api/chat` answer the page reads. */
  datatype ChatReply = ChatReply(
    userText: Option<string>,
    aiResponse: Option<string>,
    feedback: Option<FeedbackData>,
    audioUrl: Option<string>)

  /** What `fetch` produced: it threw, or a response with its `ok` flag and
      its body (None when `response.json()` threw). */
  datatype Fetched = FetchFailed | Responded(ok: bool, body: Option<ChatReply>)

  /** The successful body, if the `try` got that far. */
  function Parsed(f: Fetched): (r: Option<ChatReply>)
    ensures r.Some? <==> f.Responded? && f.ok && f.body.Some?
  {
    match f
    case FetchFailed => None
    case Responded(ok, body) => if ok then body else None
  }

  /** `sendAudioToBackend` up to the request: loading starts. */
  function BeginRequest(d: Demo): (r: Demo)
    ensures r.isLoading && r.(isLoading := d.isLoading) == d
  {
    d.(isLoading := true)
  }

  predicate Truthy(s: Option<string>) {
    s.Some? && s.value != ""
  }

  /** The rest of `sendAudioToBackend`: the `try`, the `catch` and the `finally`.
      A new spoken answer replaces `audioRef.current` without pausing the
      element it held, which keeps sounding as an orphan. */
  function CompleteRequest(d: Demo, f: Fetched): (r: Demo)
    ensures !r.isLoading
    ensures r.selectedLesson == d.selectedLesson && r.isRecording == d.isRecording
            && r.hasRecorder == d.hasRecorder && r.chunks == d.chunks && r.micHeld == d.micHeld
    ensures Parsed(f).None? ==> r == d.(error := RequestError, isLoading := false)
    ensures Parsed(f).Some? ==>
              && r.conversation == d.conversation
                   + [Entry(UserRole, Parsed(f).value.userText), Entry(Assistant, Parsed(f).value.aiResponse)]
              && r.feedback == Parsed(f).value.feedback
              && r.error == d.error
    ensures Parsed(f).Some? && Truthy(Parsed(f).value.audioUrl) ==>
              && r.audio == Some(AudioHandle(Parsed(f).value.audioUrl.value, 0, false)) && r.isPlaying
              && r.orphans == d.orphans + (if d.audio.Some? then [d.audio.value] else [])
    ensures Parsed(f).Some? && !Truthy(Parsed(f).value.audioUrl) ==>
              r.audio == d.audio && r.orphans == d.orphans && r.isPlaying == d.isPlaying
  {
    match Parsed(f)
    case None => d.(error := RequestError, isLoading := false)
    case Some(data) =>
      var d1 := d.(conversation := d.conversation + [Entry(UserRole, data.userText), Entry(Assistant, data.aiResponse)],
                   feedback := data.feedback);
      var d2 := if Truthy(data.audioUrl)
                then d1.(audio := Some(AudioHandle(data.audioUrl.value, 0, false)), isPlaying := true,
                         orphans := d.orphans + (if d.audio.Some? then [d.audio.value] else []))
                else d1;
      d2.(isLoading := false)
  }

  /** The blob sent on stop. */
  function BlobSize(chunks: seq<Chunk>): nat
    decreases |chunks|
  {
    if |chunks| == 0 then 0 else BlobSize(chunks[..|chunks| - 1]) + chunks[|chunks| - 1].size
  }

  /** `onstop`: the blob is sent, whatever its size, and the microphone is
      released only after the request has finished. */
  function OnStop(d: Demo, f: Fetched): (r: Demo)
    ensures !r.isLoading && !r.micHeld
    ensures r == CompleteRequest(BeginRequest(d), f).(micHeld := false)
  {
    var sent := CompleteRequest(BeginRequest(d), f);
    sent.(micHeld := false)
  }

  /** Every request ends with loading off; a failure changes only the error
      text, and a success appends exactly the user's entry and then the assistant's. */
  lemma RequestOutcomes(d: Demo, f: Fetched)
    ensures !OnStop(d, f).isLoading
    ensures Parsed(f).None? ==> OnStop(d, f).conversation == d.conversation && OnStop(d, f).feedback == d.feedback
                                && OnStop(d, f).error == RequestError
    ensures Parsed(f).Some? ==> |OnStop(d, f).conversation| == |d.conversation| + 2
                                && OnStop(d, f).conversation[..|d.conversation|] == d.conversation
                                && OnStop(d, f).conversation[|d.conversation|].role == UserRole
                                && OnStop(d, f).conversation[|d.conversation| + 1].role == Assistant
  {
    var r := OnStop(d, f);
    if Parsed(f).Some? {
      assert r.conversation[..|d.conversation|] == d.conversation;
    }
  }

  /** A non-ok status is a failure even when its body would parse. */
  lemma NotOkIsFailure(d: Demo, body: Option<ChatReply>)
    ensures OnStop(d, Responded(false, body)).conversation == d.conversation
    ensures OnStop(d, Responded(false, body)).error == RequestError
  {
  }

  /** An empty recording is not refused: it is sent like any other. */
  lemma EmptyRecordingIsSent(d: Demo, reply: ChatReply)
    requires BlobSize(d.chunks) == 0
    ensures |OnStop(d, Responded(true, Some(reply))).conversation| == |d.conversation| + 2
  {
  }

  /** A recording session: start with access granted, stop, and the answer arrives. */
  lemma RecordingSession(d: Demo, f: Fetched)
    requires !d.isLoading && !d.isRecording
    ensures var started := RecordButton(d, true);
            started.isRecording && started.chunks == []
            && var stopped := RecordButton(started, true);
               !stopped.isRecording && !OnStop(stopped, f).isRecording && !OnStop(stopped, f).micHeld
  {
  }

  /** `clearConversation`. */
  function ClearConversation(d: Demo): (r: Demo)
    ensures r.conversation == [] && r.feedback == None && r.error == ""
    ensures d.audio.Some? ==> r.audio == Some(d.audio.value.(paused := true)) && !r.isPlaying
    ensures d.audio.None? ==> r.audio == None && r.isPlaying == d.isPlaying
    ensures r.isLoading == d.isLoading && r.isRecording == d.isRecording && r.chunks == d.chunks
    ensures r.orphans == d.orphans
  {
    var cleared := d.(conversation := [], feedback := None, error := "");
    match d.audio
    case Some(a) => cleared.(audio := Some(a.(paused := true)), isPlaying := false)
    case None => cleared
  }

  /** `stopAudio`: rewinds and pauses; a no-op without an audio element. */
  function StopAudio(d: Demo): (r: Demo)
    ensures d.audio.None? ==> r == d
    ensures d.audio.Some? ==> r == d.(audio := Some(d.audio.value.(position := 0, paused := true)), isPlaying := false)
  {
    match d.audio
    case Some(a) => d.(audio := Some(a.(position := 0, paused := true)), isPlaying := false)
    case None => d
  }

  /** `audio.onended` of the current element: it has paused at its end, and
      the playing flag is cleared. */
  function AudioEnded(d: Demo): (r: Demo)
    ensures d.audio.Some? ==> r == d.(audio := Some(d.audio.value.(paused := true)), isPlaying := false)
    ensures d.audio.None? ==> r == d.(isPlaying := false)
  {
    match d.audio
    case Some(a) => d.(audio := Some(a.(paused := true)), isPlaying := false)
    case None => d.(isPlaying := false)
  }

  /** `audio.onended` of the orphan at index `i`: its handler still clears
      the playing flag, whatever the current element is doing. */
  function OrphanEnded(d: Demo, i: nat): (r: Demo)
    requires i < |d.orphans|
    ensures |r.orphans| == |d.orphans| && r.orphans[i] == d.orphans[i].(paused := true)
    ensures forall j :: 0 <= j < |d.orphans| && j != i ==> r.orphans[j] == d.orphans[j]
    ensures !r.isPlaying && r.audio == d.audio
  {
    d.(orphans := d.orphans[i := d.orphans[i].(paused := true)], isPlaying := false)
  }

  /** Stopping the audio twice is stopping it once; clearing keeps any audio
      element; both clear the playing flag and pause the current element, and
      neither reaches an orphan. */
  lemma AudioControls(d: Demo)
    ensures StopAudio(StopAudio(d)) == StopAudio(d)
    ensures d.audio.Some? ==> !ClearConversation(d).isPlaying && !StopAudio(d).isPlaying
                              && ClearConversation(d).audio.value.paused && StopAudio(d).audio.value.paused
    ensures ClearConversation(d).audio.Some? <==> d.audio.Some?
    ensures ClearConversation(d).orphans == d.orphans && StopAudio(d).orphans == d.orphans
  {
  }

  /** A spoken answer that arrives while the previous one still sounds leaves
      that one sounding out of reach: clearing or stopping does not pause it,
      and when it ends it clears the playing flag under the new answer. */
  lemma ReplacedAudioKeepsSounding(d: Demo, f: Fetched)
    requires Parsed(f).Some? && Truthy(Parsed(f).value.audioUrl)
    requires d.audio.Some? && !d.audio.value.paused
    ensures var r := CompleteRequest(d, f);
            && |r.orphans| == |d.orphans| + 1
            && r.orphans[|d.orphans|] == d.audio.value
            && !ClearConversation(r).orphans[|d.orphans|].paused
            && !StopAudio(r).orphans[|d.orphans|].paused
            && !OrphanEnded(r, |d.orphans|).isPlaying
            && !OrphanEnded(r, |d.orphans|).audio.value.paused
  {
  }
}

=== FILE: gradio_front.dfy ===
/** The Gradio wrapper of backend/front.py around survey.py: each submit
    runs one survey turn and records it in the chat history; the clear button
    restarts from the initial state. */
module GradioFront {
  import opened Common
  import Survey

  /** One chat-history row: (user message, bot message); None shows as
      blank. The bot half is kept symbolic; the chatbot shows `Survey.Text` of it. */
  type Row = (Option<string>, Option<Survey.Message>)

  /** The four outputs wired to (textbox, chatbot, state, JSON panel). */
  datatype Outputs = Outputs(
    textbox: string,
    history: seq<Row>,
    state: Survey.State,
    json: Option<Survey.AssessmentResult>)

  /** `chat_interface`: the row is first appended with no bot message, then
      its bot half is filled in from the new state. */
  function ChatInterface(message: string, history: seq<Row>, state: Survey.State,
                         verdict: Option<Survey.AssessmentResult>): (r: Outputs)
    ensures |r.history| == |history| + 1
    ensures r.history[..|history|] == history
    ensures r.history[|history|] == (Some(message), Some(r.state.botMessage))
    ensures r.textbox == ""
    ensures r.state == Survey.ProcessTurn(message, state, verdict)
    ensures r.json == r.state.finalResult
  {
    var pending := history + [(Some(message), None)];
    var newState := Survey.ProcessTurn(message, state, verdict);
    var filled := pending[|pending| - 1 := (Some(message), Some(newState.botMessage))];
    assert filled[..|history|] == history;
    Outputs("", filled, newState, newState.finalResult)
  }

  /** `reset_chat`. */
  function ResetChat(): (r: Outputs)
    ensures r.history == [(None, Some(Survey.Greeting))]
    ensures r.state == Survey.InitialState() && r.json == None && r.textbox == ""
  {
    var initial := Survey.InitialState();
    Outputs("", [(None, Some(initial.botMessage))], initial, None)
  }

  /** The outputs after clearing and then submitting `turns` in order. */
  function Session(turns: seq<Survey.Turn>): Outputs
    decreases |turns|
  {
    if |turns| == 0 then ResetChat()
    else
      var prev := Session(turns[..|turns| - 1]);
      var last := turns[|turns| - 1];
      ChatInterface(last.input, prev.history, prev.state, last.verdict)
  }

  /** After a reset and n submits the UI state is the survey's state after
      those n turns, the history holds the greeting plus one row per submit
      pairing each message with the reply it got, and the JSON panel shows
      exactly the survey's final result. */
  lemma {:induction false} SessionTracksSurvey(turns: seq<Survey.Turn>)
    ensures Session(turns).state == Survey.Run(Survey.InitialState(), turns)
    ensures |Session(turns).history| == |turns| + 1
    ensures Session(turns).history[0] == (None, Some(Survey.Greeting))
    ensures forall i :: 0 <= i < |turns| ==>
              Session(turns).history[i + 1] ==
              (Some(turns[i].input), Some(Survey.Run(Survey.InitialState(), turns[..i + 1]).botMessage))
    ensures Session(turns).json == Survey.Run(Survey.InitialState(), turns).finalResult
  {
    if |turns| > 0 {
      var n := |turns|;
      var prefix := turns[..n - 1];
      SessionTracksSurvey(prefix);
      var prev := Session(prefix);
      var h := Session(turns).history;
      assert h[..n] == prev.history;
      forall i | 0 <= i < n
        ensures h[i + 1] == (Some(turns[i].input), Some(Survey.Run(Survey.InitialState(), turns[..i + 1]).botMessage))
      {
        if i < n - 1 {
          assert h[i + 1] == prev.history[i + 1];
          assert prefix[..i + 1] == turns[..i + 1];
        } else {
          assert turns[..i + 1] == turns;
        }
      }
    }
  }
}

=== FILE: roleplay.dfy ===
/** The role-play page of frontend/src/pages/Roleplay.jsx: the transcript,
    the text send, the microphone recorder with its chunk buffer, and the
    correction and explanation panels.

    Browser effects are events with their outcomes as parameters: what
    `getUserMedia` and `MediaRecorder.isTypeSupported` decided, the size of a
    recorded chunk, and the parsed body of a `/roleplay/turn` response (None
    when `fetch` or `response.json()` threw). A missing JSON field is None,
    standing for JavaScript's `undefined`. */
module Roleplay {
  import opened Common

  /** The navigation state the page is opened with. */
  datatype Params = Params(
    cefrLevel: Option<string>,
    scenario: Option<string>,
    sessionId: Option<string>,
    initialBotMessage: Option<string>)

  const WelcomeMessage := "Welcome to the roleplay! You can start the conversation."
  const DefaultScenario := "You are at a coffee shop and need to order a drink."

  /** `location.state || { ... }`: the defaults apply only when there is no navigation state at all. */
  function ResolveParams(state: Option<Params>): (p: Params)
    ensures state.Some? ==> p == state.value
    ensures state.None? ==> p.cefrLevel == Some("A1") && p.scenario == Some(DefaultScenario)
                            && p.sessionId == None && p.initialBotMessage == Some(WelcomeMessage)
  {
    match state
    case Some(p) => p
    case None => Params(Some("A1"), Some(DefaultScenario), None, Some(WelcomeMessage))
  }

  /** JavaScript truthiness of a string that may be undefined or null. */
  predicate Truthy(s: Option<string>) {
    s.Some? && s.value != ""
  }

  datatype Sender = User | Bot

  /** A transcript entry; a bot text taken from a response may be undefined. */
  datatype Message = Message(text: Option<string>, sender: Sender)

  datatype RecorderState = Recording | Inactive

  datatype Mime = Wav | Webm

  datatype Recorder = Recorder(state: RecorderState, mime: Mime)

  /** A recorded chunk; only its size matters here. */
  datatype Chunk = Chunk(size: nat)

  datatype Page = Page(
    messages: seq<Message>,
    input: string,
    isRecording: bool,
    recorder: Option<Recorder>,
    chunks: seq<Chunk>,
    correction: Option<string>,
    explanation: Option<string>,
    micHeld: bool)  // a microphone stream is open and not yet stopped

  const CorrectionPlaceholder := "Your correction will appear here."
  const ExplanationPlaceholder := "An explanation of the correction will appear here."
  const ErrorText := "Error processing response."

  /** The page once the mount effect has run. */
  function InitialPage(p: Params): (r: Page)
    ensures Truthy(p.initialBotMessage) ==> r.messages == [Message(p.initialBotMessage, Bot)]
    ensures !Truthy(p.initialBotMessage) ==> r.messages == []
    ensures r.input == "" && !r.isRecording && r.recorder == None && r.chunks == [] && !r.micHeld
    ensures r.correction == Some(CorrectionPlaceholder) && r.explanation == Some(ExplanationPlaceholder)
  {
    var messages := if Truthy(p.initialBotMessage) then [Message(p.initialBotMessage, Bot)] else [];
    Page(messages, "", false, None, [], Some(CorrectionPlaceholder), Some(ExplanationPlaceholder), false)
  }

  /** Opened without navigation state, the page shows the one welcome message. */
  lemma DefaultOpening()
    ensures InitialPage(ResolveParams(None)).messages == [Message(Some(WelcomeMessage), Bot)]
    ensures ResolveParams(None).sessionId == None
  {
  }

  /** The fields of a `/roleplay/turn` response the page reads. */
  datatype TurnReply = TurnReply(botMessage: Option<string>, correction: Option<string>, explanation: Option<string>)

  /** The `try` of a turn: one bot message, and both panels overwritten with
      whatever the response holds; on an exception only the error message. */
  function ApplyReply(page: Page, reply: Option<TurnReply>): (r: Page)
    ensures r.input == page.input && r.isRecording == page.isRecording && r.recorder == page.recorder
            && r.chunks == page.chunks && r.micHeld == page.micHeld
    ensures reply.Some? ==> r.messages == page.messages + [Message(reply.value.botMessage, Bot)]
                            && r.correction == reply.value.correction && r.explanation == reply.value.explanation
    ensures reply.None? ==> r.messages == page.messages + [Message(Some(ErrorText), Bot)]
                            && r.correction == page.correction && r.explanation == page.explanation
  {
    match reply
    case Some(data) =>
      page.(messages := page.messages + [Message(data.botMessage, Bot)],
            correction := data.correction, explanation := data.explanation)
    case None => page.(messages := page.messages + [Message(Some(ErrorText), Bot)])
  }

  /** Whether `handleSend` acts. */
  predicate CanSend(page: Page, p: Params) {
    !Blank(page.input) && Truthy(p.sessionId)
  }

  /** `handleSend`. */
  function HandleSend(page: Page, p: Params, reply: Option<TurnReply>): (r: Page)
    ensures !CanSend(page, p) ==> r == page
    ensures CanSend(page, p) ==> r.input == "" && |r.messages| == |page.messages| + 2
                                 && r.messages[..|page.messages|] == page.messages
    // the panels show the response's fields, or keep what they showed when the request failed
    ensures CanSend(page, p) ==>
              && r.correction == (if reply.Some? then reply.value.correction else page.correction)
              && r.explanation == (if reply.Some? then reply.value.explanation else page.explanation)
    ensures r.isRecording == page.isRecording && r.recorder == page.recorder
            && r.chunks == page.chunks && r.micHeld == page.micHeld
  {
    if !CanSend(page, p) then page
    else
      var sent := page.(messages := page.messages + [Message(Some(page.input), User)]);
      var answered := ApplyReply(sent, reply);
      assert answered.messages[..|page.messages|] == page.messages;
      answered.(input := "")
  }

  /** A send adds the user's text, verbatim, and then exactly one bot message:
      the reply or the error text. */
  lemma SendAppendsUserThenBot(page: Page, p: Params, reply: Option<TurnReply>)
    requires CanSend(page, p)
    ensures var r := HandleSend(page, p, reply);
            && |r.messages| == |page.messages| + 2
            && r.messages[|page.messages|] == Message(Some(page.input), User)
            && r.messages[|page.messages| + 1].sender == Bot
            && r.messages[|page.messages| + 1].text
               == (if reply.Some? then reply.value.botMessage else Some(ErrorText))
  {
  }

  /** Without a session id nothing can ever be sent, whatever is typed. */
  lemma NoSessionNoSend(page: Page, reply: Option<TurnReply>)
    ensures HandleSend(page, ResolveParams(None), reply) == page
  {
  }

  // ---------------------------------------------------------------------------
  // The recorder

  /** What happened when the microphone was requested. */
  datatype MicAccess =
    | Denied       // getUserMedia threw: an alert only
    | NoTracks     // a stream without audio tracks: an alert only
    | Unsupported  // neither wav nor webm recordable: an alert, the stream stays open
    | Granted(mime: Mime)

  /** `handleMicClick` when not recording. */
  function StartRecording(page: Page, access: MicAccess): (r: Page)
    requires !page.isRecording
    ensures access.Granted? ==> r == page.(recorder := Some(Recorder(Recording, access.mime)), chunks := [],
                                           isRecording := true, micHeld := true)
    ensures access.Unsupported? ==> r == page.(micHeld := true)
    ensures access == Denied || access == NoTracks ==> r == page
  {
    match access
    case Denied => page
    case NoTracks => page
    case Unsupported => page.(micHeld := true)
    case Granted(mime) =>
      page.(recorder := Some(Recorder(Recording, mime)), chunks := [], isRecording := true, micHeld := true)
  }

  /** `ondataavailable`: only chunks with data are kept. */
  function DataAvailable(page: Page, size: nat): (r: Page)
    ensures size > 0 ==> r.chunks == page.chunks + [Chunk(size)]
    ensures size == 0 ==> r.chunks == page.chunks
    ensures r.(chunks := page.chunks) == page
  {
    if size > 0 then page.(chunks := page.chunks + [Chunk(size)]) else page
  }

  /** `handleMicClick` when recording: only a recorder in state `recording` is stopped. */
  function ManualStop(page: Page): (r: Page)
    requires page.isRecording
    ensures page.recorder.Some? && page.recorder.value.state == Recording ==>
              r == page.(recorder := Some(page.recorder.value.(state := Inactive)), isRecording := false)
    ensures !(page.recorder.Some? && page.recorder.value.state == Recording) ==> r == page
  {
    match page.recorder
    case Some(rec) =>
      if rec.state == Recording then page.(recorder := Some(rec.(state := Inactive)), isRecording := false)
      else page
    case None => page
  }

  /** Size of the blob assembled from the buffered chunks. */
  function BlobSize(chunks: seq<Chunk>): nat
    decreases |chunks|
  {
    if |chunks| == 0 then 0 else BlobSize(chunks[..|chunks| - 1]) + chunks[|chunks| - 1].size
  }

  /** Every buffered chunk holds data. */
  predicate ChunksNonEmpty(page: Page) {
    forall i :: 0 <= i < |page.chunks| ==> page.chunks[i].size > 0
  }

  /** Since only chunks with data are buffered, the blob is empty exactly when nothing was buffered. */
  lemma {:induction false} BlobEmptyIffNoChunks(chunks: seq<Chunk>)
    requires forall i :: 0 <= i < |chunks| ==> chunks[i].size > 0
    ensures BlobSize(chunks) == 0 <==> chunks == []
    decreases |chunks|
  {
    if |chunks| > 0 {
      BlobEmptyIffNoChunks(chunks[..|chunks| - 1]);
    }
  }

  lemma ChunksStayNonEmpty(page: Page, size: nat, access: MicAccess)
    requires ChunksNonEmpty(page)
    ensures ChunksNonEmpty(DataAvailable(page, size))
    ensures !page.isRecording ==> ChunksNonEmpty(StartRecording(page, access))
  {
  }

  /** `onstop`: the microphone is released first; an empty blob is refused;
      otherwise the recording is sent and only the bot's answer is added. */
  function OnStop(page: Page, reply: Option<TurnReply>): (r: Page)
    ensures !r.micHeld
    ensures BlobSize(page.chunks) == 0 ==> r == page.(micHeld := false)
    ensures BlobSize(page.chunks) > 0 ==> r == ApplyReply(page.(micHeld := false), reply)
  {
    var released := page.(micHeld := false);
    if BlobSize(page.chunks) == 0 then released else ApplyReply(released, reply)
  }

  /** After a valid recording session, a stop sends and appends nothing
      exactly when no chunk was buffered, and never adds a user message. */
  lemma StopSendsOnlyRecordedAudio(page: Page, reply: Option<TurnReply>)
    requires ChunksNonEmpty(page)
    ensures page.chunks == [] ==> OnStop(page, reply).messages == page.messages
    ensures page.chunks != [] ==> |OnStop(page, reply).messages| == |page.messages| + 1
                                  && OnStop(page, reply).messages[|page.messages|].sender == Bot
  {
    BlobEmptyIffNoChunks(page.chunks);
  }
}

=== FILE: server.dfy ===
/** The HTTP layer of backend/main.py: an in-memory map from session id to
    `ConversationManager`, the session-start endpoint and the chat endpoint
    that picks the turn's input (audio, text or the empty kick-off message)
    and shapes the JSON answer.

    Speech-to-text, text-to-speech and uuid generation are oracles: the
    transcription of an upload, the name of the generated audio file (None
    when the TTS call raised) and a fresh session id are parameters. */
module Server {
  import opened Common
  import Survey
  import Chains

  type Sessions = map<string, Chains.Manager>

  /** `get_convo_manager`: returns the store after the call and the session's manager. */
  function GetConvoManager(sessions: Sessions, id: string): (r: (Sessions, Chains.Manager))
    ensures r.0.Keys == sessions.Keys + {id}
    ensures r.1 == r.0[id]
    ensures forall k :: k in sessions ==> r.0[k] == sessions[k]
    ensures id !in sessions ==> r.1 == Chains.NewManager()
  {
    if id in sessions then (sessions, sessions[id])
    else (sessions[id := Chains.NewManager()], Chains.NewManager())
  }

  /** A known id leaves the store as it is, so asking twice is asking once. */
  lemma GetConvoManagerIdempotent(sessions: Sessions, id: string)
    ensures id in sessions ==> GetConvoManager(sessions, id).0 == sessions
    ensures GetConvoManager(GetConvoManager(sessions, id).0, id) == (GetConvoManager(sessions, id).0, GetConvoManager(sessions, id).1)
  {
  }

  /** The body of `/api/start_chat`; the reply is kept symbolic (`Survey.Text` renders it). */
  datatype StartResponse = StartResponse(sessionId: string, reply: Survey.Message, stage: string)

  /** `start_chat`, with `freshId` standing for the generated uuid. */
  function StartChat(sessions: Sessions, freshId: string): (r: (Sessions, StartResponse))
    ensures r.0.Keys == sessions.Keys + {freshId}
    ensures freshId !in sessions ==> |r.0| == |sessions| + 1
    ensures freshId !in sessions ==> r.1.stage == "self_assessment" && r.1.reply == Survey.Greeting
    ensures r.1.sessionId == freshId
    ensures r.1.stage == Survey.StageName(r.0[freshId].survey.stage)
  {
    var (s1, m) := GetConvoManager(sessions, freshId);
    (s1, StartResponse(freshId, m.survey.botMessage, Survey.StageName(m.survey.stage)))
  }

  datatype Upload = Upload(filename: string)

  /** The form fields of `/api/chat` as posted; an absent field is None.
      A missing `session_id` is written as the empty string, since FastAPI
      treats both alike. */
  datatype ChatRequest = ChatRequest(sessionId: string, text: Option<string>, audio: Option<Upload>)

  /** FastAPI's binding of an optional form field: an empty value counts as
      missing and takes the default, None. */
  function FormValue(posted: Option<string>): (r: Option<string>)
    ensures r.None? <==> posted.None? || posted.value == ""
    ensures r.Some? ==> r == posted
  {
    match posted
    case Some(v) => if v == "" then None else posted
    case None => None
  }

  /** The request the handler sees once its form fields are bound. */
  function Bind(req: ChatRequest): (r: ChatRequest)
    ensures r.sessionId == req.sessionId && r.audio == req.audio
    ensures r.text == FormValue(req.text)
  {
    req.(text := FormValue(req.text))
  }

  /** Where the turn's user input comes from. */
  datatype InputSource = FromAudio | FromText(text: string) | KickOff | NoInput

  /** The input-selection chain of `chat_endpoint`, given the stage before the turn. */
  function SelectInput(stage: Survey.Stage, req: ChatRequest): (r: InputSource)
    // audio only after the survey, and only when uploaded
    ensures r == FromAudio <==> Survey.StageName(stage) == "complete" && req.audio.Some?
    // otherwise the bound text field, verbatim
    ensures r.FromText? <==> !(Survey.StageName(stage) == "complete" && req.audio.Some?) && req.text.Some?
    ensures r.FromText? ==> r.text == req.text.value
    // otherwise the empty kick-off, only in stage welcome; anything else is a 400
    ensures r == KickOff <==> !(Survey.StageName(stage) == "complete" && req.audio.Some?) && req.text.None?
                              && Survey.StageName(stage) == "welcome"
  {
    if Survey.StageName(stage) == "complete" && req.audio.Some? then FromAudio
    else if req.text.Some? then FromText(req.text.value)
    else if Survey.StageName(stage) == "welcome" then KickOff
    else NoInput
  }

  /** The string handed to `chat`. */
  function UserInput(source: InputSource, transcript: string): string
    requires !source.NoInput?
  {
    match source
    case FromAudio => transcript
    case FromText(t) => t
    case KickOff => ""
  }

  /** The JSON body of a successful `/api/chat`; `null` is None. */
  datatype ChatResult = ChatResult(
    sessionId: string,
    reply: string,
    feedback: Option<Chains.Feedback>,
    cefrLevel: Option<string>,
    scenarioDescription: Option<string>,
    stage: string,
    audioUrl: Option<string>)

  datatype EndpointOutcome =
    | Unprocessable(sessions: Sessions)  // HTTP 422: the required `session_id` is missing or empty
    | Ok(sessions: Sessions, result: ChatResult)
    | BadRequest(sessions: Sessions)   // HTTP 400, "No valid input provided."
    | ServerError(sessions: Sessions)  // an exception escaped the handler

  /** External answers for one request: speech-to-text of the upload
      ("" when it failed), the manager's own calls, and the file name of the
      generated speech (None when the TTS call raised). */
  datatype EndpointOracles = EndpointOracles(transcript: string, chat: Chains.Oracles, speechFile: Option<string>)

  const DefaultReply := "Sorry, an error occurred."

  /** `response.get('reply', DefaultReply)`, rendered. */
  function ShownReply(reply: Option<Chains.Reply>): string {
    match reply
    case Some(rp) => Chains.ReplyText(rp)
    case None => DefaultReply
  }

  /** `chat_endpoint`, behind FastAPI's form binding. */
  function ChatEndpoint(sessions: Sessions, req: ChatRequest, o: EndpointOracles): (r: EndpointOutcome)
    // without a session id the handler never runs
    ensures r.Unprocessable? <==> req.sessionId == ""
    ensures r.Unprocessable? ==> r.sessions == sessions
    // the session is registered even when the request is then refused
    ensures !r.Unprocessable? ==> r.sessions.Keys == sessions.Keys + {req.sessionId}
    ensures forall k :: k in sessions && k != req.sessionId ==> r.sessions[k] == sessions[k]
    ensures r.BadRequest? <==> req.sessionId != ""
                               && SelectInput(GetConvoManager(sessions, req.sessionId).1.survey.stage, Bind(req)).NoInput?
    ensures r.BadRequest? ==> r.sessions[req.sessionId] == GetConvoManager(sessions, req.sessionId).1
    ensures r.Ok? ==> r.result.sessionId == req.sessionId
    ensures r.Ok? ==> r.result.stage == Survey.StageName(r.sessions[req.sessionId].survey.stage)
    // level and scenario are reported only once the survey is complete
    ensures r.Ok? ==> (r.result.cefrLevel.Some? <==> r.result.stage == "complete")
    ensures r.Ok? ==> (r.result.scenarioDescription.Some? <==> r.result.stage == "complete")
    ensures r.Ok? && r.result.cefrLevel.Some? ==> r.result.cefrLevel.value == r.sessions[req.sessionId].cefrLevel
    // speech is generated only for a non-empty reply after the survey
    ensures r.Ok? ==> (r.result.audioUrl.Some? <==> r.result.stage == "complete" && r.result.reply != "")
    // an accepted request runs one turn of the session's manager and stores the manager it leaves,
    // even when the turn or the speech synthesis raised; the answer carries the turn's reply and feedback
    ensures !r.BadRequest? && !r.Unprocessable? ==>
              var m := GetConvoManager(sessions, req.sessionId).1;
              var turn := Chains.Chat(m, UserInput(SelectInput(m.survey.stage, Bind(req)), o.transcript), o.chat);
              && r.sessions[req.sessionId] == turn.manager
              && (turn.Raised? ==> r.ServerError?)
              && (r.Ok? ==> && turn.Replied?
                            && r.result.reply == ShownReply(turn.response.reply)
                            && r.result.feedback == turn.response.feedback
                            && (r.result.audioUrl.Some? ==>
                                  o.speechFile.Some? && r.result.audioUrl.value == "/static/" + o.speechFile.value))
              && (r.ServerError? && turn.Replied? ==> o.speechFile.None?)
  {
    if req.sessionId == "" then Unprocessable(sessions)
    else
      var (s1, m) := GetConvoManager(sessions, req.sessionId);
      var source := SelectInput(m.survey.stage, Bind(req));
      if source.NoInput? then BadRequest(s1)
      else
        match Chains.Chat(m, UserInput(source, o.transcript), o.chat)
        case Raised(m2, _) => ServerError(s1[req.sessionId := m2])
        case Replied(m2, response) =>
          var s2 := s1[req.sessionId := m2];
          var reply := ShownReply(response.reply);
          var stage := Survey.StageName(m2.survey.stage);
          var complete := stage == "complete";
          var result := ChatResult(
            req.sessionId, reply, response.feedback,
            if complete then Some(m2.cefrLevel) else None,
            if complete then Some(m2.scenarioDescription) else None,
            stage, None);
          if complete && reply != "" then
            match o.speechFile
            case None => ServerError(s2)
            case Some(file) => Ok(s2, result.(audioUrl := Some("/static/" + file)))
          else Ok(s2, result)
  }

  /** Every stored manager is one the manager's own operations can produce. */
  predicate ValidStore(sessions: Sessions) {
    forall k :: k in sessions ==> Chains.Valid(sessions[k])
  }

  lemma StartChatValid(sessions: Sessions, freshId: string)
    requires ValidStore(sessions)
    ensures ValidStore(StartChat(sessions, freshId).0)
  {
    Chains.NewManagerValid();
  }

  lemma ChatEndpointValid(sessions: Sessions, req: ChatRequest, o: EndpointOracles)
    requires ValidStore(sessions)
    ensures ValidStore(ChatEndpoint(sessions, req, o).sessions)
  {
    Chains.NewManagerValid();
    var (s1, m) := GetConvoManager(sessions, req.sessionId);
    var source := SelectInput(m.survey.stage, Bind(req));
    if req.sessionId != "" && !source.NoInput? {
      Chains.ChatValid(m, UserInput(source, o.transcript), o.chat);
    }
  }

  /** The managers of this backend start in `self_assessment` and never
      reach a stage named `welcome`, so the empty kick-off never applies: a
      request with neither (non-empty) text nor usable audio is always
      refused, and without a session id it never reaches the handler. */
  lemma NoInputIsRefused(sessions: Sessions, req: ChatRequest, o: EndpointOracles)
    requires ValidStore(sessions)
    requires req.text.None? || req.text == Some("")
    requires req.audio.None? || (req.sessionId in sessions && sessions[req.sessionId].survey.stage != Survey.Complete)
    ensures req.sessionId != "" ==> ChatEndpoint(sessions, req, o).BadRequest?
    ensures req.sessionId == "" ==> ChatEndpoint(sessions, req, o) == Unprocessable(sessions)
  {
    Chains.NewManagerValid();
  }

  /** Posting an empty text is posting none: the request is answered alike. */
  lemma EmptyTextIsMissing(sessions: Sessions, req: ChatRequest, o: EndpointOracles)
    ensures ChatEndpoint(sessions, req.(text := Some("")), o) == ChatEndpoint(sessions, req.(text := None), o)
  {
    assert Bind(req.(text := Some(""))) == Bind(req.(text := None));
  }

  /** On the turn that completes the survey a (non-empty) reply is spoken. */
  lemma CompletingTurnIsSpoken(sessions: Sessions, req: ChatRequest, o: EndpointOracles)
    requires ValidStore(sessions) && req.sessionId in sessions && req.sessionId != ""
    requires sessions[req.sessionId].survey.stage == Survey.Evaluation && req.text.Some? && req.text.value != ""
    requires o.chat.verdict.Some? && o.chat.scenario.Some? && o.speechFile.Some?
    ensures ChatEndpoint(sessions, req, o).Ok?
    ensures ChatEndpoint(sessions, req, o).result.audioUrl == Some("/static/" + o.speechFile.value)
    ensures ChatEndpoint(sessions, req, o).result.cefrLevel == Some(LevelName(o.chat.verdict.value.level))
  {
    var m := sessions[req.sessionId];
    var result := o.chat.verdict.value;
    var sc := o.chat.scenario.value;
    var s := Survey.ProcessTurn(req.text.value, m.survey, o.chat.verdict);
    Chains.AssessmentDoneNonEmpty(LevelName(result.level), sc.description, s.botMessage);
  }
}

=== FILE: signup.dfy ===
/** The sign-up form of frontend/src/pages/SignUpPage.jsx: five text fields
    and the submit handler's ordered validator in front of the navigation to
    the dashboard. Signing up is a mock: a valid form only navigates. What is
    stated here is the handler's behaviour; the browser's own check of the
    `required` and `type="email"` fields, which runs before it, is not modelled. */
module SignUp {
  datatype Field = FirstName | LastName | Email | Password | ConfirmPassword

  datatype Form = Form(firstName: string, lastName: string, email: string, password: string, confirmPassword: string)

  /** `formData[name]`. */
  function Get(form: Form, name: Field): string {
    match name
    case FirstName => form.firstName
    case LastName => form.lastName
    case Email => form.email
    case Password => form.password
    case ConfirmPassword => form.confirmPassword
  }

  function EmptyForm(): (f: Form)
    ensures forall name: Field :: Get(f, name) == ""
  {
    Form("", "", "", "", "")
  }

  /** `handleChange`: the field named by the input is replaced. */
  function HandleChange(form: Form, name: Field, value: string): (r: Form)
    ensures Get(r, name) == value
    ensures forall other: Field :: other != name ==> Get(r, other) == Get(form, other)
  {
    match name
    case FirstName => form.(firstName := value)
    case LastName => form.(lastName := value)
    case Email => form.(email := value)
    case Password => form.(password := value)
    case ConfirmPassword => form.(confirmPassword := value)
  }

  /** A form is determined by its five fields, so a change that writes back
      a field's own value changes nothing, and the last of two changes to
      the same field wins. */
  lemma ChangeLaws(form: Form, name: Field, v1: string, v2: string)
    ensures HandleChange(form, name, Get(form, name)) == form
    ensures HandleChange(HandleChange(form, name, v1), name, v2) == HandleChange(form, name, v2)
  {
  }

  const MismatchError := "Passwords do not match"
  const MissingError := "Please fill in all fields"
  const Dashboard := "/dashboard"

  /** What `handleSubmit` does: show an error, or navigate. */
  datatype Submitted = ShowError(message: string) | Navigate(path: string)

  /** Some value of `formData` is the empty string, i.e. falsy. */
  predicate AnyEmpty(form: Form) {
    exists name: Field :: Get(form, name) == ""
  }

  /** `handleSubmit`: the password check comes first. */
  function HandleSubmit(form: Form): (r: Submitted)
    ensures form.password != form.confirmPassword ==> r == ShowError(MismatchError)
    ensures form.password == form.confirmPassword && AnyEmpty(form) ==> r == ShowError(MissingError)
    ensures r.Navigate? ==> r.path == Dashboard
  {
    if form.password != form.confirmPassword then ShowError(MismatchError)
    else if form.firstName == "" || form.lastName == "" || form.email == "" || form.password == "" || form.confirmPassword == ""
    then ShowError(MissingError)
    else Navigate(Dashboard)
  }

  /** The form navigates exactly when the passwords are equal and every field is filled. */
  lemma NavigatesIffValid(form: Form)
    ensures HandleSubmit(form).Navigate? <==> form.password == form.confirmPassword
                                              && forall name: Field :: Get(form, name) != ""
  {
    if HandleSubmit(form).Navigate? {
      forall name: Field ensures Get(form, name) != "" {
      }
    } else if form.password == form.confirmPassword {
      var missing := if form.firstName == "" then FirstName
                     else if form.lastName == "" then LastName
                     else if form.email == "" then Email
                     else Password;
      assert Get(form, missing) == "";
    }
  }

  /** A mismatch is reported even when fields are missing. */
  lemma MismatchTakesPrecedence(form: Form)
    requires form.password != form.confirmPassword && AnyEmpty(form)
    ensures HandleSubmit(form) == ShowError(MismatchError)
  {
  }

  /** Two empty password fields match, so the untouched form is rejected
      as incomplete rather than as mismatched. */
  lemma EmptyPasswordsReportMissing(form: Form)
    requires form.password == "" && form.confirmPassword == ""
    ensures HandleSubmit(form) == ShowError(MissingError)
    ensures HandleSubmit(EmptyForm()) == ShowError(MissingError)
  {
    assert Get(form, Password) == "";
    assert Get(EmptyForm(), Password) == "";
  }
}

=== FILE: survey.dfy ===
/** The five-stage proficiency survey of survey.py: a pure step function
    from (user input, state) to the next state. The LLM evaluator is an
    oracle: each turn receives its verdict, `None` when the evaluator raised. */
module Survey {
  import opened Common

  const TargetLanguage := "English"

  /** The survey's stages. `Other` is any stage string the machine does not recognise. */
  datatype Stage =
    | SelfAssessment
    | GuidedQuestionVocab
    | GuidedQuestionGrammar
    | Evaluation
    | Complete
    | Other(name: string)

  function StageName(s: Stage): string {
    match s
    case SelfAssessment => "self_assessment"
    case GuidedQuestionVocab => "guided_question_vocab"
    case GuidedQuestionGrammar => "guided_question_grammar"
    case Evaluation => "evaluation"
    case Complete => "complete"
    case Other(name) => name
  }

  function ParseStage(name: string): Stage {
    if name == "self_assessment" then SelfAssessment
    else if name == "guided_question_vocab" then GuidedQuestionVocab
    else if name == "guided_question_grammar" then GuidedQuestionGrammar
    else if name == "evaluation" then Evaluation
    else if name == "complete" then Complete
    else Other(name)
  }

  /** A stage is canonical when an `Other` never carries a recognised name. */
  predicate Canonical(s: Stage) {
    s.Other? ==> ParseStage(s.name).Other?
  }

  /** Reading a stage string and printing it back gives the same string. */
  lemma StageNameRoundTrip(name: string)
    ensures StageName(ParseStage(name)) == name
    ensures Canonical(ParseStage(name))
  {
  }

  /** Printing a canonical stage and reading it back gives the same stage. */
  lemma ParseStageRoundTrip(s: Stage)
    requires Canonical(s)
    ensures ParseStage(StageName(s)) == s
  {
  }

  datatype Analysis = Analysis(grammar: int, vocabulary: int, complexity: int, coherence: int)

  /** The evaluator's structured verdict; `level` is restricted to the six CEFR names. */
  datatype AssessmentResult = AssessmentResult(
    analysis: Analysis,
    feedbackForUser: string,
    level: Level,
    assessmentComplete: bool)

  datatype State = State(
    stage: Stage,
    targetLanguage: string,
    selfAssessedLevel: Option<string>,
    finalResult: Option<AssessmentResult>,
    botMessage: Message)

  /** The bot's utterances. The state records which one was said; `Text`
      renders it exactly as survey.py's f-strings do. */
  datatype Message =
    | Greeting
    | AskVocab
    | AskGrammar
    | AskBreakfast
    | Assessed(feedback: string, level: Level)
    | RetryBreakfast
    | AlreadyComplete
    | MachineError

  function Text(m: Message): string {
    match m
    case Greeting =>
      "Welcome! I'm here to help you practice " + TargetLanguage + ".\n"
      + "To get started, how comfortable do you feel with it? Are you a complete beginner, "
      + "do you know a few words and phrases, or are you somewhere in the early intermediate stage?"
    case AskVocab => "Great! Let's start with a simple one. How do you say 'friend' in " + TargetLanguage + "?"
    case AskGrammar => "Okay, now how would you say 'I am learning' in " + TargetLanguage + "?"
    case AskBreakfast =>
      "Awesome. Now, try to tell me what you had for breakfast this morning in " + TargetLanguage
      + ". Don't worry about perfection, just try your best!"
    case Assessed(feedback, level) =>
      feedback + "\nThanks! That was very helpful. Based on our chat, it looks like we can start with lessons at the "
      + LevelName(level) + " level. Ready to begin?\n(Assessment is now complete)"
    case RetryBreakfast =>
      "Sorry, I had a little trouble processing that. Let's try one more time. "
      + "Please tell me about your breakfast in " + TargetLanguage + "."
    case AlreadyComplete => "The assessment is complete. You can clear the chat to start a new assessment."
    case MachineError => "An unexpected error occurred in the state machine."
  }

  /** `get_initial_state`. */
  function InitialState(): (s: State)
    ensures s.stage == SelfAssessment
    ensures s.selfAssessedLevel == None && s.finalResult == None
    ensures s.targetLanguage == TargetLanguage
  {
    State(SelfAssessment, TargetLanguage, None, None, Greeting)
  }

  /** `process_turn`: one turn of the survey. `verdict` is what the evaluator
      returns on this turn, `None` when it raised; it is consulted only in
      stage `evaluation`. */
  function ProcessTurn(input: string, st: State, verdict: Option<AssessmentResult>): (r: State)
    // no turn changes the target language
    ensures r.targetLanguage == st.targetLanguage
    // only the self-assessment turn writes the self-assessed level, verbatim
    ensures st.stage == SelfAssessment ==> r.selfAssessedLevel == Some(input) && r.stage == GuidedQuestionVocab
    ensures st.stage != SelfAssessment ==> r.selfAssessedLevel == st.selfAssessedLevel
    ensures st.stage == GuidedQuestionVocab ==> r.stage == GuidedQuestionGrammar
    ensures st.stage == GuidedQuestionGrammar ==> r.stage == Evaluation
    // evaluation: success stores the verdict and completes; failure stays for a retry
    ensures st.stage == Evaluation && verdict.Some? ==> r.stage == Complete && r.finalResult == verdict
    ensures st.stage == Evaluation && verdict.None? ==> r.stage == Evaluation && r.finalResult == st.finalResult
    ensures st.stage != Evaluation ==> r.finalResult == st.finalResult
    // complete is absorbing: only the bot message may differ
    ensures st.stage == Complete ==> r.(botMessage := st.botMessage) == st
    // an unrecognised stage is forced to complete, without a result
    ensures st.stage.Other? ==> r.stage == Complete && r.finalResult == st.finalResult
    // what the bot says next
    ensures st.stage == SelfAssessment ==> r.botMessage == AskVocab
    ensures st.stage == GuidedQuestionVocab ==> r.botMessage == AskGrammar
    ensures st.stage == GuidedQuestionGrammar ==> r.botMessage == AskBreakfast
    ensures st.stage == Evaluation && verdict.Some? ==>
              r.botMessage == Assessed(verdict.value.feedbackForUser, verdict.value.level)
    ensures st.stage == Evaluation && verdict.None? ==> r.botMessage == RetryBreakfast
    ensures st.stage == Complete ==> r.botMessage == AlreadyComplete
    ensures st.stage.Other? ==> r.botMessage == MachineError
  {
    match st.stage
    case SelfAssessment =>
      st.(selfAssessedLevel := Some(input), botMessage := AskVocab, stage := GuidedQuestionVocab)
    case GuidedQuestionVocab =>
      st.(botMessage := AskGrammar, stage := GuidedQuestionGrammar)
    case GuidedQuestionGrammar =>
      st.(botMessage := AskBreakfast, stage := Evaluation)
    case Evaluation =>
      (match verdict
       case Some(result) =>
         st.(finalResult := Some(result), botMessage := Assessed(result.feedbackForUser, result.level), stage := Complete)
       case None =>
         st.(botMessage := RetryBreakfast))
    case Complete =>
      st.(botMessage := AlreadyComplete)
    case Other(_) =>
      st.(botMessage := MachineError, stage := Complete)
  }

  /** One user turn together with the evaluator's verdict for it. */
  datatype Turn = Turn(input: string, verdict: Option<AssessmentResult>)

  /** The state after feeding `turns` to `ProcessTurn`, in order, starting from `st`. */
  function Run(st: State, turns: seq<Turn>): State
    decreases |turns|
  {
    if |turns| == 0 then st
    else
      var last := turns[|turns| - 1];
      ProcessTurn(last.input, Run(st, turns[..|turns| - 1]), last.verdict)
  }

  /** Position of a recognised stage along the survey. */
  function Progress(s: Stage): nat
    requires !s.Other?
  {
    match s
    case SelfAssessment => 0
    case GuidedQuestionVocab => 1
    case GuidedQuestionGrammar => 2
    case Evaluation => 3
    case Complete => 4
  }

  /** The survey never moves backwards and never skips a stage: each turn
      from a recognised stage advances by at most one. */
  lemma ProgressMonotone(input: string, st: State, verdict: Option<AssessmentResult>)
    requires !st.stage.Other?
    ensures !ProcessTurn(input, st, verdict).stage.Other?
    ensures Progress(st.stage) <= Progress(ProcessTurn(input, st, verdict).stage) <= Progress(st.stage) + 1
  {
  }

  /** A turn leaves the stage where it was only in `complete`, or in
      `evaluation` when the evaluator failed. */
  lemma StageStaysOnlyWhen(input: string, st: State, verdict: Option<AssessmentResult>)
    ensures ProcessTurn(input, st, verdict).stage == st.stage
            <==> st.stage == Complete || (st.stage == Evaluation && verdict.None?)
  {
    if st.stage == Evaluation && verdict.Some? {
      assert ProcessTurn(input, st, verdict).stage == Complete;
    }
  }

  /** What every state reachable from `InitialState` satisfies. */
  predicate Reachable(s: State) {
    && !s.stage.Other?
    && s.targetLanguage == TargetLanguage
    && (s.stage == SelfAssessment <==> s.selfAssessedLevel.None?)
    && (s.stage == Complete <==> s.finalResult.Some?)
  }

  lemma ReachableStep(input: string, st: State, verdict: Option<AssessmentResult>)
    requires Reachable(st)
    ensures Reachable(ProcessTurn(input, st, verdict))
  {
  }

  /** From the initial state the fallback branch is never taken, so the
      invariant holds after any sequence of turns. */
  lemma {:induction false} RunReachable(turns: seq<Turn>)
    ensures Reachable(Run(InitialState(), turns))
  {
    if |turns| > 0 {
      var last := turns[|turns| - 1];
      RunReachable(turns[..|turns| - 1]);
      ReachableStep(last.input, Run(InitialState(), turns[..|turns| - 1]), last.verdict);
    }
  }

  /** Every reachable `complete` state carries a final result. */
  lemma CompleteHasResult(turns: seq<Turn>)
    ensures Run(InitialState(), turns).stage == Complete ==> Run(InitialState(), turns).finalResult.Some?
    ensures Run(InitialState(), turns).targetLanguage == TargetLanguage
  {
    RunReachable(turns);
  }

  /** The stage after `k` turns from the start, for k <= 3. */
  function OpeningStage(k: nat): Stage
    requires k <= 3
  {
    [SelfAssessment, GuidedQuestionVocab, GuidedQuestionGrammar, Evaluation][k]
  }

  /** Whatever is typed, the first three turns walk through the guided
      stages one per turn, and the first answer is the self-assessment. */
  lemma {:induction false} OpeningTurns(turns: seq<Turn>)
    requires |turns| <= 3
    ensures Run(InitialState(), turns).stage == OpeningStage(|turns|)
    ensures |turns| > 0 ==> Run(InitialState(), turns).selfAssessedLevel == Some(turns[0].input)
    ensures Run(InitialState(), turns).finalResult == None
  {
    if |turns| > 0 {
      var prefix := turns[..|turns| - 1];
      OpeningTurns(prefix);
      if |prefix| > 0 {
        assert prefix[0] == turns[0];
      }
    }
  }
}

=== FILE: survey_page.dfy ===
/** The survey page of frontend/src/pages/Survey.jsx: the questions are
    loaded once as bot messages, and each non-blank answer is appended as a
    user message and submitted.

    `fetch('/api/questions')` is a parameter: the list of questions, or None
    when the request, the JSON parse or the `map` over the body threw. The
    submission is returned as an output rather than performed. */
module SurveyPage {
  import opened Common

  datatype Sender = User | Bot

  datatype Message = Message(text: string, sender: Sender)

  datatype Page = Page(messages: seq<Message>, input: string)

  const SampleQuestion := "Sample question: How do you like Re-Learn?"

  function InitialPage(): (p: Page)
    ensures p.messages == [] && p.input == ""
  {
    Page([], "")
  }

  /** The question-loading effect: the transcript is replaced, not extended. */
  function LoadQuestions(page: Page, fetched: Option<seq<string>>): (r: Page)
    ensures r.input == page.input
    ensures fetched.Some? ==> |r.messages| == |fetched.value|
                              && forall i :: 0 <= i < |r.messages| ==> r.messages[i].sender == Bot
    ensures fetched.None? ==> r.messages == [Message(SampleQuestion, Bot)]
  {
    match fetched
    case Some(questions) =>
      page.(messages := seq(|questions|, i requires 0 <= i < |questions| => Message(questions[i], Bot)))
    case None => page.(messages := [Message(SampleQuestion, Bot)])
  }

  /** The texts of a transcript, in order. */
  function TextsOf(messages: seq<Message>): (r: seq<string>)
    ensures |r| == |messages|
    ensures forall i :: 0 <= i < |r| ==> r[i] == messages[i].text
  {
    seq(|messages|, i requires 0 <= i < |messages| => messages[i].text)
  }

  /** Loading shows the fetched questions themselves, one per message and in
      order: reading the texts back gives the fetched list. */
  lemma LoadedQuestionsRoundTrip(page: Page, questions: seq<string>)
    ensures TextsOf(LoadQuestions(page, Some(questions)).messages) == questions
  {
  }

  /** A failed load leaves exactly one message, whatever was shown before. */
  lemma FailedLoadShowsSample(page: Page)
    ensures |LoadQuestions(page, None).messages| == 1
    ensures TextsOf(LoadQuestions(page, None).messages) == [SampleQuestion]
  {
  }

  /** `handleSend`: the page afterwards and the text passed to
      `sendResponseToBackend`, if any. */
  function HandleSend(page: Page): (r: (Page, Option<string>))
    ensures Blank(page.input) ==> r == (page, None)
    ensures !Blank(page.input) ==> r.0.input == "" && r.1 == Some(page.input)
                                   && |r.0.messages| == |page.messages| + 1
                                   && r.0.messages[..|page.messages|] == page.messages
                                   && r.0.messages[|page.messages|] == Message(page.input, User)
  {
    if Blank(page.input) then (page, None)
    else
      var sent := page.messages + [Message(page.input, User)];
      assert sent[..|page.messages|] == page.messages;
      (Page(sent, ""), Some(page.input))
  }

  /** The non-blank entries of `inputs`, in order, as typed. */
  function Answers(inputs: seq<string>): seq<string>
    decreases |inputs|
  {
    if |inputs| == 0 then []
    else
      var rest := Answers(inputs[..|inputs| - 1]);
      if Blank(inputs[|inputs| - 1]) then rest else rest + [inputs[|inputs| - 1]]
  }

  /** Typing each input in turn and pressing send: the final page and every
      submitted text. */
  function Typed(page: Page, inputs: seq<string>): (Page, seq<string>)
    decreases |inputs|
  {
    if |inputs| == 0 then (page, [])
    else
      var prev := Typed(page, inputs[..|inputs| - 1]);
      var step := HandleSend(prev.0.(input := inputs[|inputs| - 1]));
      (step.0, prev.1 + (if step.1.Some? then [step.1.value] else []))
  }

  /** Over any sequence of sends the transcript is the loaded messages
      followed by one user message per non-blank input, untrimmed and in
      order, and exactly those texts are submitted. */
  lemma {:induction false} SendsAppendAnswers(page: Page, inputs: seq<string>)
    ensures Typed(page, inputs).1 == Answers(inputs)
    ensures |Typed(page, inputs).0.messages| == |page.messages| + |Answers(inputs)|
    ensures Typed(page, inputs).0.messages[..|page.messages|] == page.messages
    ensures forall i :: 0 <= i < |Answers(inputs)| ==>
              Typed(page, inputs).0.messages[|page.messages| + i] == Message(Answers(inputs)[i], User)
    decreases |inputs|
  {
    if |inputs| > 0 {
      var front := inputs[..|inputs| - 1];
      SendsAppendAnswers(page, front);
      var prev := Typed(page, front).0;
      var last := inputs[|inputs| - 1];
      var cur := Typed(page, inputs).0;
      if !Blank(last) {
        assert cur.messages[..|prev.messages|] == prev.messages;
        assert cur.messages[..|page.messages|] == prev.messages[..|page.messages|];
        forall i | 0 <= i < |Answers(inputs)|
          ensures cur.messages[|page.messages| + i] == Message(Answers(inputs)[i], User)
        {
          if i < |Answers(front)| {
            assert cur.messages[|page.messages| + i] == prev.messages[|page.messages| + i];
          }
        }
      }
    }
  }
}
